=== FILE: README.md ===
# Onboarding workflow pipeline — a Dafny model

This project models the core of a biller-onboarding workflow application. A
workflow is a record of business fields that moves through eight sign-off
steps: UAT Integration Setup, UAT Testing and Demo, Contract Negotiation,
Pre-Production Integration Setup, Pre-Production QA Testing, Pre-Production
Finance Verification, Production Deployment and Go-Live Announcement. Each
step belongs to one team. The model covers:

- the backend transitions of `backend/db/crud.py`: creation with `WF#####`
  titles, the sign-off state machine with its two attachment guards and its
  restart rules, the rejection-restart and step-reset helpers, and the
  change auditor of `update_workflow`;
- the gates and arithmetic of `backend/main.py` and
  `backend/main_updated.py`: the attachment upload gate, pagination, display
  fallbacks, the assembled detail and sign-off responses, the debug reset,
  and rejection and edit history;
- the frontend's access policy and display rules: the step-to-team table,
  `canSignoff`, the step-3 edit gate, form editing, the timeline, the
  create form's list editing and validation, and name enrichment.

The database is a `Store`. It holds the workflow rows in insertion order and
four append-only logs: attachments, edit history, rejection history and the
action history. Each workflow carries its eight step rows as a `Ledger`, a
sequence of exactly eight entries. Every operation is a pure function from
store to store. Errors are values (`Result`, `Option`); the model does not
forbid them.

The model follows the code where it differs from a naive reading, and states
each such point as a lemma:

- approving step 8 keeps the workflow on step 8 and never writes `Done`, so
  step 8 can be approved again;
- signing off a step other than the current one is a silent no-op;
- a workflow halted as `Rejected` still advances when its current step is
  approved;
- the backend checks no role: only the frontend does;
- guard refusals come back inside a 200 "success" response;
- a not-found raised inside `get_workflow` and the rejection-history endpoint
  is caught by their own handlers and surfaces as a 500.

Modules: `Wrappers` (Option/Result), `Text` (digits, `:05d` formatting,
Python `int()` parsing, JavaScript `trim`), `Model` (entities), `Ordering`
(sorting and filtering), `Creation`, `Signoff`, `Audit`, `Api`, `Access`,
`Timeline`, `CreateForm`, `Enrich`, and `Lifecycle` (cross-cutting
properties).

## Model

| member | source | states |
|---|---|---|
| Text.Format05RoundTrip | backend/db/crud.py:16-25 | `int()` of the digits that `f"{n:05d}"` writes gives back n for every integer n, negative ones included |
| Text.TrimBlank | src/pages/CreateWorkflow.tsx:116 | `s.trim()` is empty exactly when s is whitespace only; a non-empty trim neither starts nor ends with whitespace |
| Model.Find | backend/db/crud.py:224 | `.first()` by id returns the first row with that id, or none exactly when no row has it |
| Model.FindAfterReplace | backend/db/crud.py:224 | replacing a row with one of the same id changes no lookup's answer |
| Model.AttachmentCount | backend/db/crud.py:248 | the attachment count of a workflow is zero exactly when no attachment belongs to it |
| Model.Declared | backend/db/crud.py:72 | the handler sees exactly the body's business columns with the values sent; the record's own keys (id, title, current_step, status, timestamps, relationships) never reach it |
| Model.WithColumnDefaults | backend/db/models.py:29-45 | a new row has every key it was given, and each of the five waive flags that was not given is False |
| Creation.TitleRoundTrip | backend/db/crud.py:14-25 | every generated title parses back, after "WF", to the number it was made from |
| Creation.TitleInjective | backend/db/crud.py:25 | two generated titles are equal only when their numbers are |
| Creation.LatestIndex | backend/db/crud.py:9 | `order_by(id.desc()).first()` picks a row whose id is the largest |
| Creation.NewId | backend/db/crud.py:38-40 | the id given to a new row is larger than every existing id |
| Creation.Create | backend/db/crud.py:7-50 | the title is generated; status is "In Progress", step 1, eight Pending steps, a fresh id; the payload's business columns are kept and none of the record's own keys is taken from it; creation fails (unique title) exactly when the generated title already exists |
| Creation.CreateKeepsTitlesUnique | backend/db/models.py:19 | on a store whose titles are distinct and were generated in order, creation succeeds and keeps them distinct |
| Creation.CanonicalCreate | backend/db/crud.py:9-25 | on a store numbered 1..c in order, an empty create succeeds and adds row c + 1 titled WF{c + 1} |
| Creation.CreateFromCanonical | backend/db/crud.py:9-25 | further creates on a store numbered 1..c keep numbering in order, whatever c is |
| Creation.SequentialTitles | backend/db/crud.py:9-25 | n creations from an empty store give ids 1..n with titles WF00001, WF00002, … in order |
| Signoff.RestartTarget | backend/db/crud.py:326-330 | a rejection of step 2 restarts at 1, of step 5 or 6 at 4, and of any other step nowhere; a target is always an earlier step |
| Signoff.NextStep | backend/db/crud.py:264 | approval moves to the next step, but step 8 stays at 8 |
| Signoff.Details | backend/db/crud.py:275 | the logged details are the remarks, or "No remarks provided" when they are missing or empty |
| Signoff.ApproveLedger | backend/db/crud.py:257-295 | approval writes the record into step k, resets every later step to Pending with fields cleared, and leaves earlier steps as they were |
| Signoff.Approve | backend/db/crud.py:257-265 | approving step k records the decision, moves to the next step (8 stays 8), clears later steps and leaves the status untouched |
| Signoff.Restart | backend/db/crud.py:132-163 | the restart step is reset; the workflow returns to it "In Progress"; every later step except the rejected one is reset; the rejected step and earlier steps keep their records |
| Signoff.Reject | backend/db/crud.py:317-379 | step k is marked Rejected; with a restart target the restart rules apply; without one the status becomes 'Rejected' in place |
| Signoff.SignoffStep | backend/db/crud.py:212-381 | a missing workflow or step raises; an off-step or non-decision sign-off changes nothing; approving step 4 or rejecting step 6 with no attachment refuses and changes nothing; otherwise only that row changes, one action is logged, and a rejection also logs one rejection record |
| Signoff.ResetStepSignoff | backend/db/crud.py:384-418 | for an existing step: that step becomes Pending with fields cleared, and the workflow is set to that step "In Progress"; otherwise nothing changes |
| Ordering.SortDesc | backend/main.py:393 | the result is ordered by descending key and is a permutation of the input |
| Ordering.SelectSorted | backend/main_updated.py:149-151 | filtering then ordering keeps exactly the matching rows with their multiplicities, and yields nothing when no row matches |
| Ordering.Filter | backend/main_updated.py:149-150 | the result keeps exactly the elements that satisfy the predicate, with their multiplicities |
| Ordering.FilterAppend | backend/main_updated.py:149-150 | filtering a concatenation filters each part, so the kept elements stay in input order |
| Ordering.FilterOne | backend/main_updated.py:149-150 | a single element is kept exactly when it satisfies the predicate |
| Audit.Stringify | backend/db/crud.py:78-79 | None stays None and every other value becomes a string; a string is kept as it is |
| Audit.ComputeChanges | backend/db/crud.py:71-80 | the loop records exactly the patched keys whose old value differs, each with both values stringified, which is the reference diff |
| Audit.Update | backend/db/crud.py:65-101 | unknown id: None. Otherwise every patched business column takes its value, the step, status, title and every other field stay as they were, and one history entry holding exactly the diff is appended iff the diff is non-empty and the patch names last_updated_by |
| Audit.Patched | backend/db/crud.py:83-87 | the declared columns of the body are written over the row, every other field keeps its value, and only the timestamp moves besides |
| Audit.OnlyDeclaredColumns | backend/db/crud.py:72-84 | sending the whole record is the same update as sending its business columns |
| Audit.StepInBodyIgnored | backend/db/crud.py:72-97 | a body naming the workflow's step (as the detail page's full record does) moves neither step nor status, and with the editor the row already names records nothing and leaves every field reading as before |
| Audit.DiffEmptyIffAgrees | backend/db/crud.py:76 | a patch records no change exactly when every patched key already holds its value |
| Audit.ReapplyAgreeing | backend/db/crud.py:70-97 | a patch whose every key the row already holds with that value records no history and leaves the fields as they were |
| Audit.UpdateIdempotent | backend/db/crud.py:83-97 | re-sending an applied patch changes no field and records no history |
| Audit.SingleFieldEdit | backend/db/crud.py:90-97 | changing company_name from "A" to "B" with the same editor appends one entry with exactly that change |
| Audit.AnonymousEditUnrecorded | backend/db/crud.py:90 | a patch without last_updated_by never adds history |
| Audit.HistoryOf | backend/main_updated.py:146-167 | the history holds exactly this workflow's entries, unchanged, newest edited_at first, and is empty when there are none |
| Api.Upload | backend/main.py:554-581 | unknown workflow: 404. The upload is accepted exactly for Integration at step 4 or Finance at step 6; otherwise 403 and nothing is written. An accepted upload appends one attachment for that workflow |
| Api.UploadUngated | backend/main_updated.py:173-178 | the updated server's upload always appends an attachment and checks no step or role |
| Api.UploadUnblocksStep4 | backend/main.py:562-581 | an upload the gate admits at step 4 lets the step-4 approval through |
| Api.TotalPagesIsCeiling | backend/main.py:402 | for a positive limit, `(total + limit - 1) // limit` is the ceiling of total/limit |
| Api.SqlPage | backend/main.py:393 | LIMIT/OFFSET returns the rows from the offset (negative counts as 0), at most limit of them (negative means all); item i is row offset + i |
| Api.BillerDisplay | backend/main.py:418-419 | the listed biller name is never empty: the stored name, else the title, else "Workflow {id}" |
| Api.CompanyDisplay | backend/main.py:421-422 | the listed company name is never empty: the stored name, else "Company {id}" |
| Api.ListWorkflows | backend/main.py:355-438 | a limit of 0 fails with 500 (division by zero); otherwise the page reports the total, and its items are the display rows of the id-descending listing from offset (page - 1) * limit, at most limit of them, every display name non-empty |
| Api.EveryRowOnItsPage | backend/main.py:367-393 | with a positive limit, the row at position j of the newest-first listing is item j % limit of page j / limit + 1, so every stored row is on some page |
| Api.StepRows | backend/main.py:490-499 | the detail's steps are 1..8 in step order, each with its ledger entry |
| Api.GetWorkflow | backend/main.py:440-511 | unknown id: a 500 whose detail is the caught 404. Otherwise the stored row's title and business columns, steps ordered by number with their entries, report_fields defaulting to [], one attachment row (id, file name, description) per attachment of this workflow in stored order, and an empty edit_history |
| Api.FilterCount | backend/main.py:481-488 | the attachment rows selected for a workflow are as many as it has attachments |
| Api.SignoffEndpoint | backend/main.py:591-630 | a failed transition is a 500 carrying its message. Otherwise "success", even for a guard refusal, with the workflow's step and status after the transition, and `restart` true exactly when the submitted status was 'Rejected' |
| Api.SignoffKeepsFind | backend/main.py:604-605 | after a sign-off the workflow is still found where it was |
| Api.DebugReset | backend/main.py:680-731 | as written: step 2 is left as it was, steps 1 and 3..8 are reset, the workflow is at step 1 "In Progress", and one history row is added even for an unknown id; its text says "preserving" exactly when step 2 was Rejected |
| Api.DebugResetIntended | backend/main.py:709-714 | the reset its comment describes: step 2 is kept only when Rejected and reset otherwise |
| Api.RejectionHistory | backend/main.py:733-760 | unknown id: 500. Otherwise newest reject_date first, and the rows are exactly the projections of this workflow's records, each as often as it is stored |
| Api.RowsSorted | backend/main.py:749-757 | projecting records to rows keeps their reject_date order |
| Api.RowsFromRecords | backend/main.py:743-757 | every row of a reordering of the filtered records comes from a stored record of this workflow |
| Ordering.MapPermutation | backend/main.py:749-757 | projecting two orderings of the same records gives the same rows, each as often |
| Access.StepPermissions | src/components/WorkflowStepSignoff.tsx:6-15 | each step 1..8 lists exactly one team, and no other number lists any |
| Access.StepName | src/components/WorkflowStepSignoff.tsx:17-52 | the heading is the step's name for 1..8 and "Step {n}" otherwise |
| Access.StepLabel | frontend/src/pages/WorkflowDetail.tsx:63-73 | the label is STEP_LABELS[n] for 1..8 and "Step {n}" otherwise; 0, whose table entry is empty, also falls back to "Step 0" |
| Access.LabelsAgree | frontend/src/pages/WorkflowDetail.tsx:692 | the detail page and the sign-off component name every step number alike |
| Access.ArrowTarget | frontend/src/pages/WorkflowDetail.tsx:75-86 | a team-flow entry names a signing team exactly when it contains "→" |
| Access.ArrowTargetAfter | frontend/src/pages/WorkflowDetail.tsx:75-86 | the team read is the trimmed text after the first "→" |
| Access.TeamFlowMatchesPermissions | frontend/src/pages/WorkflowDetail.tsx:76-86 | for every step, the team after "→" in STEP_TEAM_FLOW is the one team STEP_PERMISSIONS allows |
| Access.OneTeamPerStep | src/components/WorkflowStepSignoff.tsx:49 | `canSignoff` holds exactly for a present user whose role is the step's team; never without a user or off 1..8 |
| Access.DecisionText | src/components/WorkflowStepSignoff.tsx:43 | the decision sent is always "Approved" or "Rejected" |
| Access.SubmitSignoff | src/components/WorkflowStepSignoff.tsx:55-73 | nothing is sent without permission; otherwise the body carries the username, the decision and the remarks, and no date |
| Access.HandleFormChange | frontend/src/pages/WorkflowDetail.tsx:150-177 | a checkbox stores its flag, an empty number input undefined, a number input its text to parse, any other input its string; no other key changes |
| Access.UpdatePayload | frontend/src/pages/WorkflowDetail.tsx:142-194 | nothing is sent unless a Business Team user edits a workflow at step 3; otherwise the form is sent with last_updated_by the username, or 'Unknown User' when it is empty |
| Access.Sent | frontend/src/pages/WorkflowDetail.tsx:201 | `JSON.stringify` drops exactly the keys holding undefined |
| Access.ClearedNumberNotSent | frontend/src/pages/WorkflowDetail.tsx:163-201 | clearing a number input leaves that key out of the request, which always names an editor |
| Access.PanelStatus | frontend/src/pages/WorkflowDetail.tsx:1017-1021 | the panel's status is the entry at position current_step - 1, or 'Pending' when there is none |
| Access.HistoryCell | frontend/src/pages/WorkflowDetail.tsx:990-991 | a missing or empty value shows as '-'; any other value shows as itself |
| Timeline.FindIndex | src/components/WorkflowTimeline.tsx:32 | `find` stops at the first row with that step number, or finds none exactly when no row has it |
| Timeline.CardFor | src/components/WorkflowTimeline.tsx:31-79 | completed exactly when the found entry is Approved; current exactly when not completed and the step is current; waiting otherwise; the badge shows the status or 'Pending'; the signer shows only on a completed step that has one |
| Timeline.Render | src/components/WorkflowTimeline.tsx:30-31 | one card per label after the first, card i for step i + 1 |
| Timeline.FindByNumberIsPosition | src/components/WorkflowTimeline.tsx:32 | on the step list the server sends, lookup by step number is lookup by position |
| Timeline.CompletedWinsOverCurrent | src/components/WorkflowTimeline.tsx:33-43 | an approved step that is also current is drawn completed |
| CreateForm.RemoveAt | src/pages/CreateWorkflow.tsx:130-153 | `splice(i, 1)` removes the element at i, counting a negative i from the end (clamped at 0), and nothing past the end |
| CreateForm.RemoveAtMultiset | src/pages/CreateWorkflow.tsx:151 | a removal drops exactly one copy of the removed element |
| CreateForm.AddCustomField | src/pages/CreateWorkflow.tsx:91-100 | a new field is appended unnamed, of type text, not required, with an empty options list |
| CreateForm.UpdateCustomField | src/pages/CreateWorkflow.tsx:103-107 | the update is merged into every field with the id and into no other |
| CreateForm.RemoveCustomField | src/pages/CreateWorkflow.tsx:110-112 | exactly the fields with the id are removed; the others are kept |
| CreateForm.AddOption | src/pages/CreateWorkflow.tsx:115-127 | blank input changes nothing; otherwise the trimmed option is appended to the matching fields only, and the input is cleared |
| CreateForm.RemoveOption | src/pages/CreateWorkflow.tsx:130-139 | one option is spliced out of each matching field that has an options array; other fields are untouched |
| CreateForm.AddThenRemoveOption | src/pages/CreateWorkflow.tsx:115-139 | removing option -1 after adding one restores the fields |
| CreateForm.AddReportField | src/pages/CreateWorkflow.tsx:142-146 | blank input is ignored; otherwise the trimmed, non-blank name is appended and the input cleared |
| CreateForm.RemoveReportField | src/pages/CreateWorkflow.tsx:149-153 | when the index reaches an element, exactly that element is removed and the others keep their order; otherwise nothing changes |
| CreateForm.AddThenRemoveReportField | src/pages/CreateWorkflow.tsx:142-153 | removing at the old length undoes a non-blank add |
| CreateForm.Validate | src/pages/CreateWorkflow.tsx:192-206 | only for a biller type: a blank field name fails first; then a dropdown without options fails; otherwise it passes |
| CreateForm.SubmittedLists | src/pages/CreateWorkflow.tsx:221-223 | custom and report fields are sent only for a biller type, otherwise both are empty |
| CreateForm.SentFieldsAreValid | src/pages/CreateWorkflow.tsx:192-223 | whatever validates and is sent has named fields and non-empty dropdowns |
| CreateForm.AddFiles | src/pages/CreateWorkflow.tsx:156-168 | chosen files are appended and each name's description becomes empty |
| CreateForm.RemoveFile | src/pages/CreateWorkflow.tsx:170-177 | every file with the name and its description are dropped; nothing else changes |
| CreateForm.SetDescription | src/pages/CreateWorkflow.tsx:179-184 | typing a description sets it for that name and changes no other description and no file |
| CreateForm.DescriptionForgotten | src/pages/CreateWorkflow.tsx:170-184 | removing a file discards its typed description, as if none had been typed |
| CreateForm.AddThenRemoveFile | src/pages/CreateWorkflow.tsx:156-177 | choosing a new file and removing it restores the list and the descriptions |
| Enrich.OrNotSpecified | src/direct_api.ts:56-57 | a falsy name becomes 'Not specified'; the result is never falsy |
| Enrich.FromItems | src/direct_api.ts:54-59 | every id in the answer is a key, a repeated id keeps its last item's names, and no name is falsy |
| Enrich.Fallback | src/direct_api.ts:37-51 | the fallback table has ids 1..9, all with non-empty names |
| Enrich.BuildNames | src/direct_api.ts:14-67 | an error or non-ok status gives the empty map; an empty or non-array body the fallback table; otherwise the map built from the array |
| Enrich.EnrichRows | src/direct_api.ts:72-84 | length, order and ids are kept; a row with names gets exactly its two display names replaced; other rows are unchanged |
| Enrich.EnrichIdempotent | src/direct_api.ts:72-84 | enriching twice equals enriching once, and the empty map changes nothing |
| Enrich.EnrichedNamesShown | src/direct_api.ts:56-57 | after enrichment from any answer, every listed name is still non-empty |
| Lifecycle.CreateKeepsShape | backend/db/crud.py:32-49 | creation keeps every workflow on a step in 1..8, never Done, with no approval past its current step |
| Lifecycle.SignoffKeepsShape | backend/db/crud.py:212-381 | every sign-off, whatever its outcome, keeps every workflow shaped |
| Lifecycle.RejectKeepsShape | backend/db/crud.py:317-379 | a rejection at the current step keeps the workflow shaped |
| Lifecycle.UpdateKeepsShape | backend/db/crud.py:83-87 | a field update keeps every workflow shaped |
| Lifecycle.SignoffNeverDone | backend/db/crud.py:264-265 | a successful sign-off never leaves a workflow with status 'Done' |
| Lifecycle.ResetNeverDone | backend/db/crud.py:384-418 | resetting a step's sign-off never makes a workflow 'Done' |
| Lifecycle.DebugResetNeverDone | backend/main.py:680-731 | the debug reset, as written or as intended, never makes a workflow 'Done' |
| Lifecycle.ApprovingStep8NeverDone | backend/db/crud.py:264-265 | approving step 8 leaves the workflow on step 8 with its status as it was |
| Lifecycle.Step8ApprovesAgain | backend/db/crud.py:237-265 | step 8 stays current once approved, so a second approval takes effect and is logged again |
| Lifecycle.ResignoffIsNoOp | backend/db/crud.py:237-239 | after step k < 8 is approved, signing it again returns its record and changes nothing |
| Lifecycle.RejectedStillAdvances | backend/db/crud.py:242-265 | a 'Rejected' workflow still advances on approval of its current step and stays 'Rejected' |
| Lifecycle.RolesOnlyInFrontend | backend/db/crud.py:212-265 | a user the frontend refuses still has their approval accepted by the backend |
| Lifecycle.FrontendDecisionsAct | src/components/WorkflowStepSignoff.tsx:68-72 | a sign-off the frontend sends for the current step is always acted on as the chosen decision |
| Lifecycle.NextTeamOffered | frontend/src/pages/WorkflowDetail.tsx:1003-1021 | after step k < 8 is approved, the panel shows step k + 1 as 'Pending' and offers the form to that step's team |
| Lifecycle.FinalStepShowsDecided | frontend/src/pages/WorkflowDetail.tsx:1003-1021 | after step 8 is approved, the panel still shows but reads 'Approved' and offers no form |
| Lifecycle.FullRun | backend/db/crud.py:242-298 | approving each step from the current one to 8, with an attachment on file, approves them all and ends on step 8 with the status untouched |
| Lifecycle.DebugResetKeepsStaleApproval | backend/main.py:709-714 | as written, the debug reset keeps an approved step 2 ahead of step 1, so the workflow is no longer shaped |
| Lifecycle.DebugResetIntendedKeepsShape | backend/main.py:709-714 | the reset as its comment describes it keeps every workflow shaped |
| Lifecycle.ResetThenSignoffActs | backend/db/crud.py:394-414 | after a step reset the workflow is on that step "In Progress" with the step Pending, and a decision on it takes effect |
| Lifecycle.UngatedUploadUnblocksStep4 | backend/main_updated.py:173-178 | the updated server's upload lifts the step-4 guard whoever uploads |

## Left out

- SQL sessions, commits, connections and `refresh`: each operation is one atomic change of the store.
- The retry and verification queries in `fix_workflow_after_rejection`, and its failure path. The helper is modelled as always succeeding.
- File writes to `uploads/`, the stored file path and `file_type`: uploads are modelled as attachment rows only.
- Clocks: `datetime.now()` and `utcnow` are a `now` parameter. Dates are natural numbers; timezones and ISO formatting are not modelled.
- `Numeric(8,4)` fees and JavaScript `parseFloat`: decimals are not modelled. A number input's parsed value is kept as the text it parses.
- Python `int()` on a title suffix: modelled for an optional sign followed by ASCII digits. The whitespace, underscores and non-ASCII digits that `int()` also accepts are not modelled.
- The search filter (`LIKE`) of `list_workflows`: only the unfiltered listing is modelled.
- Attachment order in `get_workflow`: the query has no `ORDER BY`, and insertion order is assumed.
- The request and response schemas (`schemas.py`) are not part of this model. Payloads are maps from column names to values; a patch holds only the keys the client set. `WorkflowCreate` and `WorkflowUpdate` are read as declaring the business columns only, so the record's own keys that a body may carry (the detail page sends the whole record back) are dropped before `crud.py` sees them (`Model.Declared`). `create_workflow` passes `status`, `current_step` and `last_updated_date` as keywords itself, which a schema declaring them would make fail on every create. A schema that declared `current_step` or `status` for updates, letting `setattr` move them, is not modelled.
- `custom_fields` and `report_fields`: `models.py` declares neither column, and the model assumes they are stored as `get_workflow` reads them.
- `WorkflowHistory` and `WorkflowRejectionHistory`: `models.py` defines neither table, although `crud.py` writes both (lines 270, 333 and 349) and `main.py` reads the second. The model assumes both tables exist, as the action log (`Store.actions`) and the rejection log (`Store.rejections`). As written, the first rejection would raise at `crud.py:333` after step k was already committed as Rejected, and the action-log writes would fail inside their `try` blocks and log nothing.
- The non-null constraint on `biller_integration_name`: a create without it is not modelled as failing.
- Authentication, login and routing (`AuthContext`, `ProtectedRoute`): the user is an input.
- The loading and error state of React components, rendering and CSS classes. Only the style choice of the timeline is kept.
- Network calls of the frontend: fetch results are inputs (`Enrich.Response`). A failed JSON parse counts as a thrown error.
- The generic `handleChange` of the create form and its fee coercion `parseFloat(...) || 0`: both act on decimal inputs, which are not modelled.
- Ids generated from `Date.now()` and `Math.random()` in `addCustomField`: the id is a parameter.
- Api.RejectionHistory: ordering among records with equal reject_date is left unspecified, as the SQL leaves it.

## Findings

| source | as written | input that shows it | evidently intended | confidence | as-written member | corrected member |
|---|---|---|---|---|---|---|
| backend/main.py:709-714 | steps 3..8 are reset and step 2 is always skipped, whatever its status; `preserve_rejection` only changes the logged text | a workflow at step 3 whose step 2 is Approved: after the reset it is on step 1 with step 2 still Approved | the comment's rule: keep step 2 only when it is Rejected, and reset it otherwise | medium, not executed | Lifecycle.DebugResetKeepsStaleApproval (on Api.DebugReset) | Api.DebugResetIntended, with Lifecycle.DebugResetIntendedKeepsShape |

=== FILE: access.dfy ===
/** The frontend's access policy and display rules: the step-to-team table
    and sign-off form of src/components/WorkflowStepSignoff.tsx, and the
    edit gate, form editing, step labels, team flow, sign-off panel and
    history cells of frontend/src/pages/WorkflowDetail.tsx. The backend
    checks none of these rules. */
module Access {
  import opened Wrappers
  import opened Text
  import opened Model
  import Signoff
  import Audit
  import Api

  /** The logged-in user, as the auth context provides it. */
  datatype User = User(username: string, role: string)

  // ---- Step tables ----

  /** `STEP_PERMISSIONS`: the teams allowed to sign off each step; no
      entry outside 1..8. */
  function StepPermissions(n: int): (r: Option<seq<string>>)
    ensures r.Some? <==> IsStep(n)
    ensures r.Some? ==> |r.value| == 1
  {
    if n == 1 then Some(["Integration"])
    else if n == 2 then Some(["Business Team"])
    else if n == 3 then Some(["Business Team"])
    else if n == 4 then Some(["Integration"])
    else if n == 5 then Some(["QA"])
    else if n == 6 then Some(["Finance"])
    else if n == 7 then Some(["Integration"])
    else if n == 8 then Some(["Business Team"])
    else None
  }

  /** `STEP_NAMES`: the step names keyed 1..8. */
  function StepNames(n: int): Option<string> {
    if n == 1 then Some("UAT Integration Setup")
    else if n == 2 then Some("UAT Testing and Demo")
    else if n == 3 then Some("Contract Negotiation")
    else if n == 4 then Some("Pre-Production Integration Setup")
    else if n == 5 then Some("Pre-Production QA Testing")
    else if n == 6 then Some("Pre-Production Finance Verification")
    else if n == 7 then Some("Production Deployment")
    else if n == 8 then Some("Go-Live Announcement")
    else None
  }

  /** `STEP_LABELS` of the detail page: an array whose entry 0 is ''. */
  const StepLabels: seq<string> := [
    "",
    "UAT Integration Setup",
    "UAT Testing and Demo",
    "Contract Negotiation",
    "Pre-Production Integration Setup",
    "Pre-Production QA Testing",
    "Pre-Production Finance Verification",
    "Production Deployment",
    "Go-Live Announcement"]

  const Arrow: char := '\U{2192}'

  /** `STEP_TEAM_FLOW`: "handing team → signing team" per step, '' at 0. */
  const StepTeamFlow: seq<string> := [
    "",
    "Business Team \U{2192} Integration",
    "Integration \U{2192} Business Team",
    "Business Team \U{2192} Business Team",
    "Business Team \U{2192} Integration",
    "Integration \U{2192} QA",
    "QA \U{2192} Finance",
    "Finance \U{2192} Integration",
    "Integration \U{2192} Business Team"]

  /** JavaScript `arr[n]` on an array of strings: undefined off the ends. */
  function At(arr: seq<string>, n: int): Option<string> {
    if 0 <= n < |arr| then Some(arr[n]) else None
  }

  /** `` text || `Step ${n}` ``: a missing or empty name falls back. */
  function OrStepN(name: Option<string>, n: int): (r: string)
    ensures name.Some? && name.value != "" ==> r == name.value
    ensures name.None? || name.value == "" ==> r == "Step " + IntToString(n)
  {
    if name.Some? && name.value != "" then name.value else "Step " + IntToString(n)
  }

  /** The heading of the sign-off component. */
  function StepName(n: int): (r: string)
    ensures IsStep(n) ==> r == StepNames(n).value
    ensures !IsStep(n) ==> r == "Step " + IntToString(n)
  {
    OrStepN(StepNames(n), n)
  }

  /** The step name shown on the detail page. */
  function StepLabel(n: int): (r: string)
    ensures IsStep(n) ==> r == StepLabels[n]
    ensures !IsStep(n) ==> r == "Step " + IntToString(n)
  {
    OrStepN(At(StepLabels, n), n)
  }

  /** The two pages name every step number alike, fallbacks included
      (label 0 is '' and so falls back like a missing name). */
  lemma LabelsAgree(n: int)
    ensures StepLabel(n) == StepName(n)
  {
  }

  /** The text after the first arrow, trimmed; none when there is no arrow. */
  function ArrowTarget(s: string): (r: Option<string>)
    ensures r.Some? <==> Arrow in s
    decreases |s|
  {
    if |s| == 0 then None
    else if s[0] == Arrow then Some(Trim(s[1..]))
    else ArrowTarget(s[1..])
  }

  lemma {:induction false} ArrowTargetAfter(prefix: string, rest: string)
    requires Arrow !in prefix
    ensures ArrowTarget(prefix + [Arrow] + rest) == Some(Trim(rest))
    decreases |prefix|
  {
    if |prefix| > 0 {
      assert (prefix + [Arrow] + rest)[1..] == prefix[1..] + [Arrow] + rest;
      ArrowTargetAfter(prefix[1..], rest);
    } else {
      assert (prefix + [Arrow] + rest)[1..] == rest;
    }
  }

  /** A team name padded by one leading space trims back to itself. */
  lemma TrimSpaced(t: string)
    requires t != "" && !IsJsWhitespace(t[0]) && !IsJsWhitespace(t[|t| - 1])
    ensures Trim(" " + t) == t
  {
    var s := " " + t;
    var a := TrimStart(s);
    assert IsJsWhitespace(s[0]);
    assert s[1] == t[0];
    assert |s| - |a| == 1;
    assert a == t;
    var b := TrimEnd(t);
    assert |b| == |t|;
  }

  /** A team-flow entry written "<prefix>→ <team>" names the step's one
      permitted team as its signer. */
  lemma FlowTarget(n: int, prefix: string)
    requires IsStep(n)
    requires StepTeamFlow[n] == prefix + [Arrow] + " " + StepPermissions(n).value[0]
    requires Arrow !in prefix
    requires var team := StepPermissions(n).value[0];
      team != "" && !IsJsWhitespace(team[0]) && !IsJsWhitespace(team[|team| - 1])
    ensures ArrowTarget(StepTeamFlow[n]) == Some(StepPermissions(n).value[0])
  {
    var team := StepPermissions(n).value[0];
    assert prefix + [Arrow] + " " + team == prefix + [Arrow] + (" " + team);
    ArrowTargetAfter(prefix, " " + team);
    TrimSpaced(team);
  }

  /** UAT setup and testing (steps 1 and 2). */
  lemma FlowTargetUat(n: int)
    requires 1 <= n <= 2
    ensures ArrowTarget(StepTeamFlow[n]) == Some(StepPermissions(n).value[0])
  {
    if n == 1 { FlowTarget(1, "Business Team "); }
    else { FlowTarget(2, "Integration "); }
  }

  /** Contract negotiation and pre-production setup (steps 3 and 4). */
  lemma FlowTargetContract(n: int)
    requires 3 <= n <= 4
    ensures ArrowTarget(StepTeamFlow[n]) == Some(StepPermissions(n).value[0])
  {
    if n == 3 { FlowTarget(3, "Business Team "); }
    else { FlowTarget(4, "Business Team "); }
  }

  /** Pre-production QA and finance (steps 5 and 6). */
  lemma FlowTargetPreProduction(n: int)
    requires 5 <= n <= 6
    ensures ArrowTarget(StepTeamFlow[n]) == Some(StepPermissions(n).value[0])
  {
    if n == 5 { FlowTarget(5, "Integration "); }
    else { FlowTarget(6, "QA "); }
  }

  /** Production deployment and go-live (steps 7 and 8). */
  lemma FlowTargetProduction(n: int)
    requires 7 <= n <= 8
    ensures ArrowTarget(StepTeamFlow[n]) == Some(StepPermissions(n).value[0])
  {
    if n == 7 { FlowTarget(7, "Finance "); }
    else { FlowTarget(8, "Integration "); }
  }

  /** For every step the team the detail page names as signing is the one
      team the sign-off component lets sign. */
  lemma TeamFlowMatchesPermissions(n: int)
    requires IsStep(n)
    ensures ArrowTarget(StepTeamFlow[n]) == Some(StepPermissions(n).value[0])
  {
    if n <= 2 { FlowTargetUat(n); }
    else if n <= 4 { FlowTargetContract(n); }
    else if n <= 6 { FlowTargetPreProduction(n); }
    else { FlowTargetProduction(n); }
  }

  // ---- Sign-off component ----

  /** `canSignoff`: a user is present and their role is listed for the
      step; always false off 1..8. */
  predicate CanSignoff(user: Option<User>, n: int) {
    user.Some? && StepPermissions(n).Some? && user.value.role in StepPermissions(n).value
  }

  /** Exactly one role may sign off each step, and none may sign off a
      number outside 1..8. */
  lemma OneTeamPerStep(username: string, role: string, n: int)
    ensures CanSignoff(Some(User(username, role)), n) <==> IsStep(n) && role == StepPermissions(n).value[0]
    ensures !CanSignoff(None, n)
  {
  }

  /** The component's choice; 'Approved' until the user picks. */
  datatype Decision = Approve | Reject

  const DefaultDecision: Decision := Approve

  function DecisionText(d: Decision): (s: string)
    ensures s == "Approved" || s == "Rejected"
  {
    match d
    case Approve => "Approved"
    case Reject => "Rejected"
  }

  /** `handleSignoff`: nothing is sent without permission; otherwise the
      body names the user, the decision and the remarks, and leaves the
      date to the server. */
  function SubmitSignoff(user: Option<User>, n: int, d: Decision, remarks: string): (r: Option<Signoff.Request>)
    ensures r.Some? <==> CanSignoff(user, n)
    ensures r.Some? ==>
      && r.value.person == user.value.username
      && r.value.status == DecisionText(d)
      && r.value.date.None?
      && r.value.remarks == Some(remarks)
  {
    if !CanSignoff(user, n) then None
    else Some(Signoff.Request(user.value.username, DecisionText(d), None, Some(remarks)))
  }

  /** The form is offered only while the step is undecided and to a user
      allowed to sign it; a decided step shows its status instead. */
  predicate FormOffered(currentStatus: string, user: Option<User>, n: int) {
    currentStatus != "Approved" && currentStatus != "Rejected" && CanSignoff(user, n)
  }

  // ---- Detail page ----

  /** `canEditWorkflow`: a loaded workflow, a Business Team user, step 3. */
  predicate CanEdit(w: Option<Workflow>, user: Option<User>) {
    w.Some? && user.Some? && user.value.role == "Business Team" && w.value.currentStep == 3
  }

  /** A value in the edit form: JSON from the server, a number input's
      `parseFloat` of its text (the parse itself is not modelled), or
      `undefined`. */
  datatype FormValue = Json(v: Value) | Float(raw: string) | Undefined

  datatype InputKind = Checkbox | NumberInput | OtherInput

  /** `handleFormChange`: a checkbox stores its checked flag, an empty
      number input stores undefined, a number input otherwise its parsed
      text, any other input its raw string; no other key changes. */
  function HandleFormChange(form: map<string, FormValue>, name: string, kind: InputKind, value: string, checked: bool): (r: map<string, FormValue>)
    ensures r.Keys == form.Keys + {name}
    ensures forall k :: k in form && k != name ==> r[k] == form[k]
    ensures kind == Checkbox ==> r[name] == Json(Flag(checked))
    ensures kind == NumberInput && value == "" ==> r[name] == Undefined
    ensures kind == NumberInput && value != "" ==> r[name] == Float(value)
    ensures kind == OtherInput ==> r[name] == Json(Text(value))
  {
    match kind
    case Checkbox => form[name := Json(Flag(checked))]
    case NumberInput => form[name := if value == "" then Undefined else Float(value)]
    case OtherInput => form[name := Json(Text(value))]
  }

  const UnknownUser: string := "Unknown User"

  /** `handleUpdateWorkflow`: nothing is sent unless editing is allowed;
      otherwise the form goes out with `last_updated_by` set to the
      username, or 'Unknown User' when it is missing or empty. */
  function UpdatePayload(w: Option<Workflow>, user: Option<User>, form: map<string, FormValue>): (r: Option<map<string, FormValue>>)
    ensures r.Some? <==> w.Some? && user.Some? && user.value.role == "Business Team" && w.value.currentStep == 3
    ensures r.Some? ==>
      && r.value.Keys == form.Keys + {Audit.LastUpdatedBy}
      && (forall k :: k in form && k != Audit.LastUpdatedBy ==> r.value[k] == form[k])
      && r.value[Audit.LastUpdatedBy] == Json(Text(if user.value.username != "" then user.value.username else UnknownUser))
  {
    if !CanEdit(w, user) then None
    else
      var editor := if user.Some? && user.value.username != "" then user.value.username else UnknownUser;
      Some(form[Audit.LastUpdatedBy := Json(Text(editor))])
  }

  /** `JSON.stringify` of the form: keys holding undefined are dropped. */
  function Sent(payload: map<string, FormValue>): (r: map<string, FormValue>)
    ensures r.Keys <= payload.Keys
    ensures forall k :: k in payload ==> (k in r <==> payload[k] != Undefined)
    ensures forall k :: k in r ==> r[k] == payload[k]
  {
    map k | k in payload && payload[k] != Undefined :: payload[k]
  }

  /** Clearing a number input does not clear the column: the key is left
      out of the request body, so the server keeps the old value. The
      request always names an editor. */
  lemma ClearedNumberNotSent(w: Workflow, user: User, form: map<string, FormValue>, name: string, checked: bool)
    requires name != Audit.LastUpdatedBy
    requires CanEdit(Some(w), Some(user))
    ensures var p := UpdatePayload(Some(w), Some(user), HandleFormChange(form, name, NumberInput, "", checked));
      && p.Some?
      && name !in Sent(p.value)
      && Audit.LastUpdatedBy in Sent(p.value)
      && Sent(p.value)[Audit.LastUpdatedBy] != Json(Text(""))
  {
  }

  /** The sign-off panel is shown while the workflow is not 'Done' and the
      step list reaches the current step. */
  predicate PanelShown(d: Api.Detail) {
    d.status != Done && |d.steps| >= d.currentStep
  }

  function StatusText(s: SignoffStatus): (t: string)
    ensures t != ""
  {
    match s
    case Pending => "Pending"
    case Approved => "Approved"
    case Rejected => "Rejected"
  }

  /** The status handed to the component: the status of the entry at
      position current_step - 1, or 'Pending' when there is none. */
  function PanelStatus(d: Api.Detail): (t: string)
    ensures 1 <= d.currentStep <= |d.steps| ==> t == StatusText(d.steps[d.currentStep - 1].entry.status)
    ensures !(1 <= d.currentStep <= |d.steps|) ==> t == "Pending"
  {
    if 1 <= d.currentStep <= |d.steps| then StatusText(d.steps[d.currentStep - 1].entry.status) else "Pending"
  }

  /** Old and new values in the change log: a missing or empty one shows
      as '-'. */
  function HistoryCell(v: Option<string>): (t: string)
    ensures t != ""
    ensures t == "-" <==> v.None? || v.value == "" || v.value == "-"
    ensures v.Some? && v.value != "" ==> t == v.value
  {
    if v.Some? && v.value != "" then v.value else "-"
  }
}

=== FILE: api.dfy ===
/** The HTTP layer of backend/main.py that carries logic of its own: the
    attachment upload gate, list pagination and display fallbacks, the
    assembled workflow detail, the sign-off response, the debug reset and
    the rejection history; and the ungated upload of
    backend/main_updated.py. */
module Api {
  import opened Wrappers
  import opened Text
  import opened Model
  import opened Signoff
  import Ordering

  /** An `HTTPException`: status code and detail. */
  datatype HttpError = HttpError(code: int, detail: string)

  const NotFoundDetail: string := "404: Workflow not found"

  // ---- Attachment upload ----

  datatype UploadForm = UploadForm(fileName: string, description: Option<string>, uploadedBy: string, role: string)

  /** Only Integration at step 4 and Finance at step 6 may upload. */
  predicate UploadAllowed(currentStep: int, role: string) {
    (currentStep == 4 && role == "Integration") || (currentStep == 6 && role == "Finance")
  }

  function AddAttachment(st: Store, id: nat, fileName: string, description: Option<string>, uploadedBy: Option<string>): (r: (Store, Attachment))
    ensures r.0 == st.(attachments := st.attachments + [r.1])
    ensures r.1.workflowId == id && r.1.fileName == fileName && r.1.description == description && r.1.uploadedBy == uploadedBy
  {
    var a := Attachment(|st.attachments| + 1, id, fileName, description, uploadedBy);
    (st.(attachments := st.attachments + [a]), a)
  }

  /** `upload_attachment` of main.py: 404 for an unknown workflow, 403
      (before anything is written) unless the gate admits the role at the
      workflow's current step, otherwise one attachment row is added. */
  function Upload(st: Store, id: nat, form: UploadForm): (r: Result<(Store, Attachment), HttpError>)
    ensures Find(st.workflows, id).None? ==> r.Failure? && r.error.code == 404
    ensures Find(st.workflows, id).Some? ==>
      var w := st.workflows[Find(st.workflows, id).value];
      && (r.Success? <==> UploadAllowed(w.currentStep, form.role))
      && (r.Failure? ==> r.error.code == 403)
    ensures r.Success? ==>
      && r.value.0 == st.(attachments := st.attachments + [r.value.1])
      && r.value.1.workflowId == id
      && r.value.1.fileName == form.fileName
  {
    match Find(st.workflows, id)
    case None => Failure(HttpError(404, "Workflow " + IntToString(id) + " not found"))
    case Some(i) =>
      if !UploadAllowed(st.workflows[i].currentStep, form.role) then
        Failure(HttpError(403, "Only Integration team can upload at Step 4 and Finance team can upload at Step 6"))
      else
        Success(AddAttachment(st, id, form.fileName, form.description, Some(form.uploadedBy)))
  }

  /** `upload_attachment` of main_updated.py: no workflow, step or role
      check; the row is always added. */
  function UploadUngated(st: Store, id: nat, fileName: string, description: Option<string>): (r: (Store, Attachment))
    ensures r.0.attachments == st.attachments + [r.1]
    ensures r.0.workflows == st.workflows
    ensures r.1.workflowId == id
  {
    AddAttachment(st, id, fileName, description, None)
  }

  /** An upload the gate admits at step 4 lifts the step-4 approval guard. */
  lemma UploadUnblocksStep4(st: Store, id: nat, form: UploadForm, req: Request, now: nat)
    requires Upload(st, id, form).Success?
    requires st.workflows[Find(st.workflows, id).value].currentStep == 4
    requires req.status == "Approved"
    ensures var st' := Upload(st, id, form).value.0;
      SignoffStep(st', id, 4, req, now).Success? && SignoffStep(st', id, 4, req, now).value.1.StepReturned?
  {
    var st' := Upload(st, id, form).value.0;
    assert st'.workflows == st.workflows;
    assert st'.attachments[|st.attachments|].workflowId == id;
  }

  // ---- Listing ----

  /** Python's `a // b` (floor division). */
  function FloorDiv(a: int, b: int): int
    requires b != 0
  {
    if b > 0 then a / b else (-a) / (-b)
  }

  function Offset(page: int, limit: int): int {
    (page - 1) * limit
  }

  /** `total_pages = (total + limit - 1) // limit`. */
  function TotalPages(total: int, limit: int): int
    requires limit != 0
  {
    FloorDiv(total + limit - 1, limit)
  }

  /** For a positive page size the page count is the ceiling of
      total/limit: enough pages for every row and no empty last page. */
  lemma TotalPagesIsCeiling(total: nat, limit: int)
    requires limit > 0
    ensures var p := TotalPages(total, limit);
      p >= 0 && p * limit >= total && (p - 1) * limit < total + (if total == 0 then limit else 0)
  {
    var p := TotalPages(total, limit);
    var q := (total + limit - 1) / limit;
    var m := (total + limit - 1) % limit;
    assert total + limit - 1 == q * limit + m;
    assert p == q;
    assert p * limit == total + limit - 1 - m;
  }

  /** SQLite's `LIMIT limit OFFSET offset`: a negative offset counts as 0
      and a negative limit as no limit. */
  function SqlPage<T>(rows: seq<T>, limit: int, offset: int): (r: seq<T>)
    ensures var start := if offset < 0 then 0 else offset;
      && (start >= |rows| ==> r == [])
      && (start < |rows| && limit >= 0 ==> r == rows[start..if start + limit < |rows| then start + limit else |rows|])
      && (start < |rows| && limit < 0 ==> r == rows[start..])
      && (forall i :: 0 <= i < |r| ==> start + i < |rows| && r[i] == rows[start + i])
  {
    var start := if offset < 0 then 0 else offset;
    if start >= |rows| then []
    else if limit < 0 || start + limit >= |rows| then rows[start..]
    else rows[start..start + limit]
  }

  /** A dashboard row after the display fallbacks. */
  datatype ListItem = ListItem(id: nat, title: string, biller: Value, company: Value, currentStep: int, status: WorkflowStatus)

  /** An empty or missing biller name shows the title, else "Workflow {id}". */
  function BillerDisplay(w: Workflow): (v: Value)
    ensures !Falsy(v)
    ensures !Falsy(Field(w, "biller_integration_name")) ==> v == Field(w, "biller_integration_name")
    ensures Falsy(Field(w, "biller_integration_name")) && w.title != "" ==> v == Text(w.title)
    ensures Falsy(Field(w, "biller_integration_name")) && w.title == "" ==> v == Text("Workflow " + IntToString(w.id))
  {
    var b := Field(w, "biller_integration_name");
    if !Falsy(b) then b
    else if w.title != "" then Text(w.title)
    else Text("Workflow " + IntToString(w.id))
  }

  /** An empty or missing company name shows "Company {id}". */
  function CompanyDisplay(w: Workflow): (v: Value)
    ensures !Falsy(v)
    ensures !Falsy(Field(w, "company_name")) ==> v == Field(w, "company_name")
    ensures Falsy(Field(w, "company_name")) ==> v == Text("Company " + IntToString(w.id))
  {
    var c := Field(w, "company_name");
    if !Falsy(c) then c else Text("Company " + IntToString(w.id))
  }

  function ListItemOf(w: Workflow): ListItem {
    ListItem(w.id, w.title, BillerDisplay(w), CompanyDisplay(w), w.currentStep, w.status)
  }

  datatype Page = Page(items: seq<ListItem>, total: nat, page: int, limit: int, totalPages: int)

  /** `list_workflows` without a search term: rows newest id first, one
      page of them, and the page count. A zero limit divides by zero and
      surfaces as a 500. */
  function ListWorkflows(st: Store, page: int, limit: int): (r: Result<Page, HttpError>)
    ensures limit == 0 <==> r.Failure?
    ensures r.Failure? ==> r.error.code == 500
    ensures r.Success? ==>
      && r.value.total == |st.workflows|
      && r.value.totalPages == TotalPages(|st.workflows|, limit)
      && Ordering.SortedDesc(r.value.items, (item: ListItem) => item.id as int)
      && (limit > 0 ==> |r.value.items| <= limit)
      && (forall i :: 0 <= i < |r.value.items| ==> !Falsy(r.value.items[i].biller) && !Falsy(r.value.items[i].company))
      && r.value.items == Ordering.Map(SqlPage(Ordering.SortDesc(st.workflows, (w: Workflow) => w.id as int), limit, Offset(page, limit)), ListItemOf)
  {
    var rows := Ordering.SortDesc(st.workflows, (w: Workflow) => w.id as int);
    var slice := SqlPage(rows, limit, Offset(page, limit));
    if limit == 0 then Failure(HttpError(500, "integer division or modulo by zero"))
    else
      var items := Ordering.Map(slice, ListItemOf);
      SliceSorted(rows, limit, Offset(page, limit));
      Success(Page(items, |st.workflows|, page, limit, TotalPages(|st.workflows|, limit)))
  }

  lemma SliceSorted(rows: seq<Workflow>, limit: int, offset: int)
    requires Ordering.SortedDesc(rows, (w: Workflow) => w.id as int)
    ensures Ordering.SortedDesc(Ordering.Map(SqlPage(rows, limit, offset), ListItemOf), (item: ListItem) => item.id as int)
  {
    var slice := SqlPage(rows, limit, offset);
    var start := if offset < 0 then 0 else offset;
    forall i, j | 0 <= i < j < |slice|
      ensures slice[i].id >= slice[j].id
    {
      assert slice[i] == rows[start + i] && slice[j] == rows[start + j];
    }
    ItemsSorted(slice);
  }

  /** Display rows keep the order of the workflows they come from. */
  lemma ItemsSorted(ws: seq<Workflow>)
    requires forall i, j :: 0 <= i < j < |ws| ==> ws[i].id >= ws[j].id
    ensures Ordering.SortedDesc(Ordering.Map(ws, ListItemOf), (item: ListItem) => item.id as int)
  {
    var items := Ordering.Map(ws, ListItemOf);
    assert forall i :: 0 <= i < |items| ==> items[i].id == ws[i].id;
  }

  /** The page holding position j starts at j rounded down to a multiple
      of the page size. */
  lemma PageStart(j: nat, limit: int)
    requires limit > 0
    ensures Offset(j / limit + 1, limit) == j - j % limit
    ensures 0 <= j - j % limit <= j < j - j % limit + limit
  {
    assert j == (j / limit) * limit + j % limit;
  }

  /** Row `start + i` is item i of the page starting at `start`. */
  lemma PageAt<T>(rows: seq<T>, limit: int, start: nat, i: nat)
    requires i < limit && start + i < |rows|
    ensures i < |SqlPage(rows, limit, start)| && SqlPage(rows, limit, start)[i] == rows[start + i]
  {
  }

  /** Pages of a positive size cover the listing: the row at position j of
      the newest-first order is item j % limit of page j / limit + 1. */
  lemma EveryRowOnItsPage(st: Store, limit: int, j: int)
    requires limit > 0 && 0 <= j < |st.workflows|
    ensures var rows := Ordering.SortDesc(st.workflows, (w: Workflow) => w.id as int);
      var r := ListWorkflows(st, j / limit + 1, limit);
      && r.Success?
      && j % limit < |r.value.items|
      && r.value.items[j % limit] == ListItemOf(rows[j])
  {
    var rows := Ordering.SortDesc(st.workflows, (w: Workflow) => w.id as int);
    PageStart(j, limit);
    var start := j - j % limit;
    PageAt(rows, limit, start, j % limit);
    var items := ListWorkflows(st, j / limit + 1, limit).value.items;
    assert items == Ordering.Map(SqlPage(rows, limit, start), ListItemOf);
  }

  // ---- Workflow detail ----

  datatype StepRow = StepRow(stepNumber: int, entry: Entry)
  datatype AttachmentRow = AttachmentRow(id: nat, fileName: string, description: Option<string>)

  datatype Detail = Detail(
    id: nat, title: string, fields: map<string, Value>, currentStep: int, status: WorkflowStatus,
    steps: seq<StepRow>, attachments: seq<AttachmentRow>, reportFields: seq<string>, editHistory: seq<EditEntry>)

  function StepRows(l: Ledger): (rows: seq<StepRow>)
    ensures |rows| == StepCount
    ensures forall i :: 0 <= i < |rows| ==> rows[i] == StepRow(i + 1, l[i])
  {
    seq(8, i requires 0 <= i < 8 => StepRow(i + 1, l[i]))
  }

  /** `get_workflow`: the row with its steps ordered by step number, its
      attachments, and report_fields defaulting to []; edit_history is
      always empty. The 404 it raises is caught by its own handler and
      re-raised as a 500. */
  function GetWorkflow(st: Store, id: nat): (r: Result<Detail, HttpError>)
    ensures Find(st.workflows, id).None? <==> r.Failure?
    ensures r.Failure? ==> r.error == HttpError(500, NotFoundDetail)
    ensures r.Success? ==>
      var w := st.workflows[Find(st.workflows, id).value];
      && r.value.id == id && r.value.currentStep == w.currentStep && r.value.status == w.status
      && |r.value.steps| == StepCount
      && (forall i :: 0 <= i < |r.value.steps| ==> r.value.steps[i] == StepRow(i + 1, w.ledger[i]))
      && (w.reportFields.None? ==> r.value.reportFields == [])
      && (w.reportFields.Some? ==> r.value.reportFields == w.reportFields.value)
      && r.value.editHistory == []
      && r.value.title == w.title && r.value.fields == w.fields
      && r.value.attachments == Ordering.Map(Ordering.Filter(st.attachments, (a: Attachment) => a.workflowId == id),
                                             (a: Attachment) => AttachmentRow(a.id, a.fileName, a.description))
      && |r.value.attachments| == AttachmentCount(st.attachments, id)
  {
    match Find(st.workflows, id)
    case None => Failure(HttpError(500, NotFoundDetail))
    case Some(i) =>
      var w := st.workflows[i];
      var mine := Ordering.Filter(st.attachments, (a: Attachment) => a.workflowId == id);
      FilterCount(st.attachments, id);
      var rows := Ordering.Map(mine, (a: Attachment) => AttachmentRow(a.id, a.fileName, a.description));
      Success(Detail(w.id, w.title, w.fields, w.currentStep, w.status, StepRows(w.ledger), rows,
                     w.reportFields.GetOr([]), []))
  }

  /** Counting from the front agrees with `AttachmentCount`, which counts
      from the back. */
  lemma {:induction false} CountFront(atts: seq<Attachment>, id: nat)
    requires |atts| > 0
    ensures AttachmentCount(atts, id) == (if atts[0].workflowId == id then 1 else 0) + AttachmentCount(atts[1..], id)
    decreases |atts|
  {
    if |atts| > 1 {
      CountFront(atts[..|atts| - 1], id);
      assert atts[..|atts| - 1][1..] == atts[1..][..|atts[1..]| - 1];
    }
  }

  lemma {:induction false} FilterCount(atts: seq<Attachment>, id: nat)
    ensures |Ordering.Filter(atts, (a: Attachment) => a.workflowId == id)| == AttachmentCount(atts, id)
    decreases |atts|
  {
    if |atts| > 0 {
      FilterCount(atts[1..], id);
      CountFront(atts, id);
    }
  }

  // ---- Sign-off response ----

  /** The text of the `NoResultFound` the transition raised, which becomes
      the 500's detail. */
  function NotFoundMessage(e: NotFound): string {
    match e
    case WorkflowMissing(id) => "Workflow " + IntToString(id) + " not found"
    case StepMissing(id, k) => "Step " + IntToString(k) + " not found for workflow " + IntToString(id)
  }

  datatype SignoffResponse = SignoffResponse(
    status: string, message: string, currentStep: int, workflowStatus: WorkflowStatus, restart: bool, stepResult: Outcome)

  /** The sign-off endpoint: the transition's exceptions become a 500; on
      return it reports the workflow's step and status after the
      transition, `restart` exactly when the submitted status was
      'Rejected', and "success" even when a guard refused. */
  function SignoffEndpoint(st: Store, id: nat, k: int, req: Request, now: nat): (r: Result<(Store, SignoffResponse), HttpError>)
    ensures r.Failure? <==> SignoffStep(st, id, k, req, now).Failure?
    ensures r.Failure? ==> r.error == HttpError(500, NotFoundMessage(SignoffStep(st, id, k, req, now).error))
    ensures r.Success? ==>
      var (st', resp) := r.value;
      && st' == SignoffStep(st, id, k, req, now).value.0
      && resp.status == "success"
      && (resp.restart <==> req.status == "Rejected")
      && resp.stepResult == SignoffStep(st, id, k, req, now).value.1
      && Find(st'.workflows, id).Some?
      && resp.currentStep == st'.workflows[Find(st'.workflows, id).value].currentStep
      && resp.workflowStatus == st'.workflows[Find(st'.workflows, id).value].status
  {
    match SignoffStep(st, id, k, req, now)
    case Failure(e) => Failure(HttpError(500, NotFoundMessage(e)))
    case Success((st', outcome)) =>
      SignoffKeepsFind(st, id, k, req, now);
      var w := st'.workflows[Find(st'.workflows, id).value];
      Success((st', SignoffResponse("success", "Step " + IntToString(k) + " signed off successfully",
                                    w.currentStep, w.status, req.status == "Rejected", outcome)))
  }

  /** A successful transition keeps the workflow where `Find` puts it. */
  lemma SignoffKeepsFind(st: Store, id: nat, k: int, req: Request, now: nat)
    requires SignoffStep(st, id, k, req, now).Success?
    ensures var st' := SignoffStep(st, id, k, req, now).value.0;
      Find(st'.workflows, id) == Find(st.workflows, id)
  {
    var st' := SignoffStep(st, id, k, req, now).value.0;
    var i := Find(st.workflows, id).value;
    if st'.workflows != st.workflows {
      FindAfterReplace(st.workflows, i, st'.workflows[i], id);
    }
  }

  // ---- Debug reset ----

  const ResetDetails: string := "Manual reset for testing"
  const ResetDetailsPreserving: string := "Manual reset for testing while preserving rejection history"

  /** `debug_reset_to_step_1`: steps 1 and 3..8 are reset, step 2 is left
      as it is, the workflow goes back to step 1 "In Progress", and one
      action row is added (even when no such workflow exists). */
  function DebugReset(st: Store, id: nat, now: nat): (st': Store)
    ensures |st'.actions| == |st.actions| + 1 && st'.actions[..|st.actions|] == st.actions
    ensures st'.actions[|st.actions|].workflowId == id && st'.actions[|st.actions|].actionBy == "system"
    ensures st'.attachments == st.attachments && st'.edits == st.edits && st'.rejections == st.rejections
    ensures Find(st.workflows, id).None? ==> st'.workflows == st.workflows
    ensures Find(st.workflows, id).Some? ==>
      var i := Find(st.workflows, id).value;
      var w := st.workflows[i];
      && |st'.workflows| == |st.workflows|
      && var w' := st'.workflows[i];
      && (forall j :: 0 <= j < |st.workflows| && j != i ==> st'.workflows[j] == st.workflows[j])
      && w' == w.(currentStep := 1, status := InProgress, ledger := w'.ledger)
      && w'.ledger[1] == w.ledger[1]
      && (forall x :: 0 <= x < StepCount && x != 1 ==> w'.ledger[x] == Cleared)
      && (st'.actions[|st.actions|].details == ResetDetailsPreserving <==> w.ledger[1].status == SignoffStatus.Rejected)
  {
    match Find(st.workflows, id)
    case None =>
      st.(actions := st.actions + [ActionRecord(id, ManualReset(false), "system", now, ResetDetails)])
    case Some(i) =>
      var w := st.workflows[i];
      var preserve := w.ledger[1].status == SignoffStatus.Rejected;
      var l: Ledger := seq(8, x requires 0 <= x < 8 => if x == 1 then w.ledger[1] else Cleared);
      var w' := w.(currentStep := 1, status := InProgress, ledger := l);
      st.(workflows := st.workflows[i := w'],
          actions := st.actions + [ActionRecord(id, ManualReset(preserve), "system", now,
                                                if preserve then ResetDetailsPreserving else ResetDetails)])
  }

  /** The reset its comment describes: step 2 is kept only when it is
      Rejected, and reset like the others otherwise. */
  function DebugResetIntended(st: Store, id: nat, now: nat): (st': Store)
    ensures |st'.actions| == |st.actions| + 1 && st'.actions[..|st.actions|] == st.actions
    ensures st'.attachments == st.attachments && st'.edits == st.edits && st'.rejections == st.rejections
    ensures Find(st.workflows, id).None? ==> st'.workflows == st.workflows
    ensures Find(st.workflows, id).Some? ==>
      var i := Find(st.workflows, id).value;
      var w := st.workflows[i];
      && |st'.workflows| == |st.workflows|
      && (forall j :: 0 <= j < |st.workflows| && j != i ==> st'.workflows[j] == st.workflows[j])
      && var w' := st'.workflows[i];
      && w' == w.(currentStep := 1, status := InProgress, ledger := w'.ledger)
      && (w.ledger[1].status == SignoffStatus.Rejected ==> w'.ledger[1] == w.ledger[1])
      && (forall x :: 0 <= x < StepCount && (x != 1 || w.ledger[1].status != SignoffStatus.Rejected) ==> w'.ledger[x] == Cleared)
  {
    match Find(st.workflows, id)
    case None =>
      st.(actions := st.actions + [ActionRecord(id, ManualReset(false), "system", now, ResetDetails)])
    case Some(i) =>
      var w := st.workflows[i];
      var preserve := w.ledger[1].status == SignoffStatus.Rejected;
      var l: Ledger := seq(8, x requires 0 <= x < 8 => if x == 1 && preserve then w.ledger[1] else Cleared);
      var w' := w.(currentStep := 1, status := InProgress, ledger := l);
      st.(workflows := st.workflows[i := w'],
          actions := st.actions + [ActionRecord(id, ManualReset(preserve), "system", now,
                                                if preserve then ResetDetailsPreserving else ResetDetails)])
  }

  // ---- Rejection history ----

  datatype RejectionRow = RejectionRow(id: nat, stepNumber: int, rejectDate: nat, rejectedBy: string, remarks: Option<string>, restartStep: Option<int>)

  function RowOf(rec: RejectionRecord): RejectionRow {
    RejectionRow(rec.id, rec.stepNumber, rec.rejectDate, rec.rejectedBy, rec.remarks, rec.restartStep)
  }

  /** `get_workflow_rejection_history`: the workflow's rejection records,
      newest `reject_date` first. Its 404 is caught and re-raised as 500. */
  function RejectionHistory(st: Store, id: nat): (r: Result<seq<RejectionRow>, HttpError>)
    ensures Find(st.workflows, id).None? <==> r.Failure?
    ensures r.Failure? ==> r.error.code == 500
    ensures r.Success? ==>
      && Ordering.SortedDesc(r.value, (row: RejectionRow) => row.rejectDate as int)
      && |r.value| == |Ordering.Filter(st.rejections, (rec: RejectionRecord) => rec.workflowId == id)|
      && (forall i :: 0 <= i < |r.value| ==> exists j :: 0 <= j < |st.rejections| && st.rejections[j].workflowId == id && RowOf(st.rejections[j]) == r.value[i])
      && multiset(r.value) == multiset(Ordering.Map(Ordering.Filter(st.rejections, (rec: RejectionRecord) => rec.workflowId == id), RowOf))
  {
    match Find(st.workflows, id)
    case None => Failure(HttpError(500, "404: Workflow " + IntToString(id) + " not found"))
    case Some(_) =>
      var mine := Ordering.Filter(st.rejections, (rec: RejectionRecord) => rec.workflowId == id);
      var sorted := Ordering.SortDesc(mine, (rec: RejectionRecord) => rec.rejectDate as int);
      var rows := Ordering.Map(sorted, RowOf);
      RowsSorted(sorted);
      RowsFromRecords(st.rejections, id, mine, sorted);
      Ordering.MapPermutation(sorted, mine, RowOf);
      Success(rows)
  }

  /** Rows keep the order of the records they come from. */
  lemma RowsSorted(sorted: seq<RejectionRecord>)
    requires Ordering.SortedDesc(sorted, (rec: RejectionRecord) => rec.rejectDate as int)
    ensures Ordering.SortedDesc(Ordering.Map(sorted, RowOf), (row: RejectionRow) => row.rejectDate as int)
  {
    var rows := Ordering.Map(sorted, RowOf);
    forall i, j | 0 <= i < j < |rows|
      ensures rows[i].rejectDate >= rows[j].rejectDate
    {
      assert rows[i] == RowOf(sorted[i]) && rows[j] == RowOf(sorted[j]);
    }
  }

  /** Every record of a reordering of the filtered log is a record of this
      workflow. */
  lemma RowsFromRecords(log: seq<RejectionRecord>, id: nat, mine: seq<RejectionRecord>, sorted: seq<RejectionRecord>)
    requires mine == Ordering.Filter(log, (rec: RejectionRecord) => rec.workflowId == id)
    requires multiset(sorted) == multiset(mine)
    ensures forall i :: 0 <= i < |sorted| ==> exists j :: 0 <= j < |log| && log[j].workflowId == id && RowOf(log[j]) == RowOf(sorted[i])
  {
    forall i | 0 <= i < |sorted|
      ensures exists j :: 0 <= j < |log| && log[j].workflowId == id && RowOf(log[j]) == RowOf(sorted[i])
    {
      var x := sorted[i];
      assert x in multiset(sorted);
      assert multiset(mine)[x] > 0;
      assert x.workflowId == id && multiset(log)[x] > 0;
      assert x in log;
      var j :| 0 <= j < |log| && log[j] == x;
    }
  }
}

=== FILE: audit.dfy ===
/** The Change Auditor: `update_workflow` in backend/db/crud.py (field-level
    diff, patch application, history append) and the history projection of
    `get_workflow_history` in backend/main_updated.py. */
module Audit {
  import opened Wrappers
  import opened Text
  import opened Model
  import Ordering

  /** Python's `str(v)` for a column value, with None kept as None. */
  function Stringify(v: Value): (r: Option<string>)
    ensures r.None? <==> v == Null
    ensures v.Text? ==> r == Some(v.s)
  {
    match v
    case Null => None
    case Text(s) => Some(s)
    case Number(n) => Some(IntToString(n))
    case Flag(b) => Some(if b then "True" else "False")
  }

  /** Reference definition of the recorded changes: the patched keys whose
      old value differs from the new one, each with both values
      stringified. */
  function Diff(w: Workflow, patch: map<string, Value>): map<string, Change>
  {
    map k | k in patch && Field(w, k) != patch[k] :: Change(Stringify(Field(w, k)), Stringify(patch[k]))
  }

  /** The change-tracking loop of `update_workflow`, key by key. */
  method ComputeChanges(w: Workflow, patch: map<string, Value>) returns (changes: map<string, Change>)
    ensures forall k :: k in changes <==> k in patch && Field(w, k) != patch[k]
    ensures forall k :: k in changes ==> changes[k] == Change(Stringify(Field(w, k)), Stringify(patch[k]))
    ensures changes == Diff(w, patch)
  {
    changes := map[];
    var todo := patch.Keys;
    while todo != {}
      invariant todo <= patch.Keys
      invariant forall k :: k in changes <==> k in patch && k !in todo && Field(w, k) != patch[k]
      invariant forall k :: k in changes ==> changes[k] == Change(Stringify(Field(w, k)), Stringify(patch[k]))
      decreases todo
    {
      var key :| key in todo;
      var oldValue := Field(w, key);
      if oldValue != patch[key] {
        changes := changes[key := Change(Stringify(oldValue), Stringify(patch[key]))];
      }
      todo := todo - {key};
    }
  }

  const LastUpdatedBy: string := "last_updated_by"

  /** The editor column is a business column: a body naming its editor
      keeps that name. */
  lemma EditorIsDeclared()
    ensures LastUpdatedBy !in RecordKeys
  {
  }

  /** The row after the declared columns of a body are written over it:
      each of those takes its value, every other field keeps its own, and
      only the timestamp moves besides. */
  function Patched(w: Workflow, patch: map<string, Value>, now: nat): (w': Workflow)
    ensures forall k :: k in patch && k !in RecordKeys ==> Field(w', k) == patch[k]
    ensures forall k :: k !in patch || k in RecordKeys ==> Field(w', k) == Field(w, k)
    ensures w' == w.(fields := w'.fields, lastUpdated := now)
  {
    w.(fields := w.fields + Declared(patch), lastUpdated := now)
  }

  /** `update_workflow`. An unknown id gives None and changes nothing.
      Otherwise the body keeps its declared business columns only; every
      one of those takes its new value (changed or not), nothing else about
      the workflow changes but its timestamp, and one history entry holding
      exactly the differing columns is appended when there is at least one
      and the body names its editor. */
  function Update(st: Store, id: nat, patch: map<string, Value>, now: nat): (r: Option<(Store, Workflow)>)
    ensures r.None? <==> Find(st.workflows, id).None?
    ensures r.Some? ==>
      var i := Find(st.workflows, id).value;
      var w := st.workflows[i];
      var (st', w') := r.value;
      && (forall k :: k in patch && k !in RecordKeys ==> Field(w', k) == patch[k])
      && (forall k :: k !in patch || k in RecordKeys ==> Field(w', k) == Field(w, k))
      && w' == w.(fields := w'.fields, lastUpdated := now)
      && st'.workflows == st.workflows[i := w']
      && st'.attachments == st.attachments && st'.rejections == st.rejections && st'.actions == st.actions
      && (|Diff(w, Declared(patch))| > 0 && LastUpdatedBy in patch ==>
            st'.edits == st.edits + [EditEntry(|st.edits| + 1, id, patch[LastUpdatedBy], now, Diff(w, Declared(patch)))])
      && (|Diff(w, Declared(patch))| == 0 || LastUpdatedBy !in patch ==> st'.edits == st.edits)
  {
    match Find(st.workflows, id)
    case None => None
    case Some(i) =>
      EditorIsDeclared();
      var w := st.workflows[i];
      var body := Declared(patch);
      var changes := Diff(w, body);
      var w' := Patched(w, patch, now);
      var edits := if |changes| > 0 && LastUpdatedBy in body
        then st.edits + [EditEntry(|st.edits| + 1, id, body[LastUpdatedBy], now, changes)]
        else st.edits;
      Some((st.(workflows := st.workflows[i := w'], edits := edits), w'))
  }

  /** Only the declared columns of a body matter: sending the whole record
      (id, step, status, timestamps included) is the same update as
      sending its business columns. */
  lemma OnlyDeclaredColumns(st: Store, id: nat, patch: map<string, Value>, now: nat)
    ensures Update(st, id, patch, now) == Update(st, id, Declared(patch), now)
  {
    assert Declared(Declared(patch)) == Declared(patch);
  }

  /** A body naming only the record's step, as the detail page's full
      record does, moves neither step nor status; with the editor the row
      already names it records nothing and every field reads as before. */
  lemma StepInBodyIgnored(st: Store, id: nat, step: int, editor: Value, now: nat)
    requires Find(st.workflows, id).Some?
    ensures var r := Update(st, id, map["current_step" := Number(step), LastUpdatedBy := editor], now);
      var w := st.workflows[Find(st.workflows, id).value];
      && r.Some?
      && r.value.1.currentStep == w.currentStep && r.value.1.status == w.status
      && (Field(w, LastUpdatedBy) == editor ==>
            r.value.0.edits == st.edits && forall k :: Field(r.value.1, k) == Field(w, k))
  {
    var w := st.workflows[Find(st.workflows, id).value];
    var patch := map["current_step" := Number(step), LastUpdatedBy := editor];
    EditorIsDeclared();
    var body := Declared(patch);
    assert body == map[LastUpdatedBy := editor];
    DiffEmptyIffAgrees(w, body);
  }

  /** A patch produces no changes exactly when it agrees with the row. */
  lemma DiffEmptyIffAgrees(w: Workflow, patch: map<string, Value>)
    ensures |Diff(w, patch)| == 0 <==> forall k :: k in patch ==> Field(w, k) == patch[k]
  {
    if exists k :: k in patch && Field(w, k) != patch[k] {
      var k :| k in patch && Field(w, k) != patch[k];
      assert k in Diff(w, patch);
    }
  }

  /** A patch every key of which the row already holds with the same value
      records nothing and leaves the row's fields as they were. */
  lemma ReapplyAgreeing(st: Store, id: nat, patch: map<string, Value>, now: nat)
    requires Find(st.workflows, id).Some?
    requires var w := st.workflows[Find(st.workflows, id).value];
      forall k :: k in patch && k !in RecordKeys ==> k in w.fields && w.fields[k] == patch[k]
    ensures Update(st, id, patch, now).Some?
    ensures Update(st, id, patch, now).value.0.edits == st.edits
    ensures Update(st, id, patch, now).value.1.fields == st.workflows[Find(st.workflows, id).value].fields
  {
    var w := st.workflows[Find(st.workflows, id).value];
    var body := Declared(patch);
    MergeAgreeing(w.fields, body);
    DiffEmptyIffAgrees(w, body);
  }

  /** Writing values a map already holds leaves it as it was. */
  lemma MergeAgreeing(m: map<string, Value>, d: map<string, Value>)
    requires forall k :: k in d ==> k in m && m[k] == d[k]
    ensures m + d == m
  {
  }

  /** Re-sending a patch that was just applied records nothing: the second
      update leaves the edit history as it was and the fields as they were. */
  lemma UpdateIdempotent(st: Store, id: nat, patch: map<string, Value>, now: nat, later: nat)
    requires Update(st, id, patch, now).Some?
    ensures var st1 := Update(st, id, patch, now).value.0;
      && Update(st1, id, patch, later).Some?
      && Update(st1, id, patch, later).value.0.edits == st1.edits
      && Update(st1, id, patch, later).value.1.fields == Update(st, id, patch, now).value.1.fields
  {
    var i := Find(st.workflows, id).value;
    var r := Update(st, id, patch, now).value;
    var st1, w1 := r.0, r.1;
    FindAfterReplace(st.workflows, i, w1, id);
    assert st1.workflows[i] == w1;
    assert w1.fields == st.workflows[i].fields + Declared(patch);
    ReapplyAgreeing(st1, id, patch, later);
  }

  /** Changing company_name from "A" to "B" with the editor unchanged
      records exactly one entry whose changes are that one field. */
  lemma SingleFieldEdit(st: Store, id: nat, editor: Value, now: nat)
    requires Find(st.workflows, id).Some?
    requires var w := st.workflows[Find(st.workflows, id).value];
      Field(w, "company_name") == Text("A") && Field(w, LastUpdatedBy) == editor
    ensures var r := Update(st, id, map["company_name" := Text("B"), LastUpdatedBy := editor], now);
      && r.Some?
      && r.value.0.edits == st.edits + [EditEntry(|st.edits| + 1, id, editor, now, map["company_name" := Change(Some("A"), Some("B"))])]
  {
    var w := st.workflows[Find(st.workflows, id).value];
    var patch := map["company_name" := Text("B"), LastUpdatedBy := editor];
    EditorIsDeclared();
    assert "company_name" !in RecordKeys;
    assert Declared(patch) == patch;
    assert Diff(w, patch) == map["company_name" := Change(Some("A"), Some("B"))];
  }

  /** A patch that omits the editor never reaches the history, however
      much it changes. */
  lemma AnonymousEditUnrecorded(st: Store, id: nat, patch: map<string, Value>, now: nat)
    requires Find(st.workflows, id).Some? && LastUpdatedBy !in patch
    ensures Update(st, id, patch, now).Some?
    ensures Update(st, id, patch, now).value.0.edits == st.edits
  {
  }

  /** The history endpoint: this workflow's entries, newest `edited_at`
      first; an entry is returned with its id, workflow, editor, time and
      changes as stored. */
  function HistoryOf(st: Store, id: nat): (r: seq<EditEntry>)
    ensures forall i :: 0 <= i < |r| ==> r[i].workflowId == id
    ensures Ordering.SortedDesc(r, (e: EditEntry) => e.editedAt as int)
    ensures forall e :: multiset(r)[e] == if e.workflowId == id then multiset(st.edits)[e] else 0
    ensures (forall j :: 0 <= j < |st.edits| ==> st.edits[j].workflowId != id) ==> r == []
  {
    var mine := (e: EditEntry) => e.workflowId == id;
    var newest := (e: EditEntry) => e.editedAt as int;
    Ordering.SelectSorted(st.edits, mine, newest);
    Ordering.SortDesc(Ordering.Filter(st.edits, mine), newest)
  }
}

=== FILE: create_form.dfy ===
/** The list editing of src/pages/CreateWorkflow.tsx: custom field
    definitions and their dropdown options, report field names, the
    attachment list, submit-time validation, and the biller-type gating
    of what the request carries. */
module CreateForm {
  import opened Wrappers
  import opened Text
  import Ordering

  datatype FieldType = TextField | NumberField | Dropdown

  /** A custom field definition. `options` is absent or an array; an
      empty array still counts as present. */
  datatype CustomField = CustomField(id: string, name: string, fieldType: FieldType, options: Option<seq<string>>, required: bool)

  /** A `Partial<CustomField>`: only the keys it carries overwrite. */
  datatype FieldUpdate = FieldUpdate(
    id: Option<string>, name: Option<string>, fieldType: Option<FieldType>,
    options: Option<Option<seq<string>>>, required: Option<bool>)

  // ---- JavaScript splice ----

  /** The position `arr.splice(start, 1)` removes at: a negative start
      counts from the end and is clamped at 0. */
  function SpliceStart(len: nat, start: int): nat {
    if start >= 0 then start else if len + start >= 0 then len + start else 0
  }

  /** `arr.splice(start, 1)` on a copy: removes one element at the
      normalised start, or nothing when that lies past the end. */
  function RemoveAt<T>(s: seq<T>, start: int): (r: seq<T>)
    ensures var p := SpliceStart(|s|, start);
      && (p < |s| ==> |r| == |s| - 1 && (forall i :: 0 <= i < p ==> r[i] == s[i]) && (forall i :: p <= i < |r| ==> r[i] == s[i + 1]))
      && (p >= |s| ==> r == s)
  {
    var p := SpliceStart(|s|, start);
    if p < |s| then s[..p] + s[p + 1..] else s
  }

  /** Removing keeps every other element: exactly one copy of the removed
      one is gone from the multiset. */
  lemma RemoveAtMultiset<T>(s: seq<T>, start: int)
    ensures SpliceStart(|s|, start) < |s| ==>
      multiset(RemoveAt(s, start)) + multiset{s[SpliceStart(|s|, start)]} == multiset(s)
  {
    var p := SpliceStart(|s|, start);
    if p < |s| {
      assert s == s[..p] + [s[p]] + s[p + 1..];
    }
  }

  // ---- Custom fields ----

  /** `addCustomField`: an unnamed text field with no options; the id
      (built from the clock and a random number) is a parameter. */
  function AddCustomField(fields: seq<CustomField>, freshId: string): (r: seq<CustomField>)
    ensures r == fields + [CustomField(freshId, "", TextField, Some([]), false)]
  {
    fields + [CustomField(freshId, "", TextField, Some([]), false)]
  }

  function Merge(f: CustomField, u: FieldUpdate): (g: CustomField)
    ensures g.id == u.id.GetOr(f.id) && g.name == u.name.GetOr(f.name)
    ensures g.fieldType == u.fieldType.GetOr(f.fieldType) && g.options == u.options.GetOr(f.options)
    ensures g.required == u.required.GetOr(f.required)
  {
    CustomField(u.id.GetOr(f.id), u.name.GetOr(f.name), u.fieldType.GetOr(f.fieldType),
                u.options.GetOr(f.options), u.required.GetOr(f.required))
  }

  /** `updateCustomField`: the update is merged into every field with the
      id and into no other. */
  function UpdateCustomField(fields: seq<CustomField>, id: string, u: FieldUpdate): (r: seq<CustomField>)
    ensures |r| == |fields|
    ensures forall i :: 0 <= i < |fields| ==> r[i] == if fields[i].id == id then Merge(fields[i], u) else fields[i]
  {
    Ordering.Map(fields, (f: CustomField) => if f.id == id then Merge(f, u) else f)
  }

  /** `removeCustomField`: drops exactly the fields with the id and keeps
      the rest. */
  function RemoveCustomField(fields: seq<CustomField>, id: string): (r: seq<CustomField>)
    ensures forall i :: 0 <= i < |r| ==> r[i].id != id
    ensures forall f :: multiset(r)[f] == if f.id != id then multiset(fields)[f] else 0
  {
    Ordering.Filter(fields, (f: CustomField) => f.id != id)
  }

  /** The option text box: the field it was typed for and its text. */
  datatype OptionInput = OptionInput(fieldId: string, option: string)

  const EmptyOptionInput := OptionInput("", "")

  /** `addOption`: whitespace-only input changes nothing; otherwise the
      trimmed text is appended to the options (treating absent as empty)
      of every field with the id, and the input is cleared. */
  function AddOption(fields: seq<CustomField>, fieldId: string, input: OptionInput): (r: (seq<CustomField>, OptionInput))
    ensures IsBlank(input.option) ==> r == (fields, input)
    ensures !IsBlank(input.option) ==>
      && r.1 == EmptyOptionInput
      && |r.0| == |fields|
      && (forall i :: 0 <= i < |fields| && fields[i].id != fieldId ==> r.0[i] == fields[i])
      && (forall i :: 0 <= i < |fields| && fields[i].id == fieldId ==>
            r.0[i] == fields[i].(options := Some(fields[i].options.GetOr([]) + [Trim(input.option)])))
  {
    TrimBlank(input.option);
    if Trim(input.option) == "" then (fields, input)
    else
      var opt := Trim(input.option);
      (Ordering.Map(fields, (f: CustomField) => if f.id == fieldId then f.(options := Some(f.options.GetOr([]) + [opt])) else f),
       EmptyOptionInput)
  }

  /** `removeOption`: splices one option out of every field with the id
      that has an options array; other fields are untouched. */
  function RemoveOption(fields: seq<CustomField>, fieldId: string, index: int): (r: seq<CustomField>)
    ensures |r| == |fields|
    ensures forall i :: 0 <= i < |fields| ==>
      r[i] == if fields[i].id == fieldId && fields[i].options.Some? then fields[i].(options := Some(RemoveAt(fields[i].options.value, index))) else fields[i]
  {
    Ordering.Map(fields, (f: CustomField) => if f.id == fieldId && f.options.Some? then f.(options := Some(RemoveAt(f.options.value, index))) else f)
  }

  /** Removing the last option (index -1, which splice counts from the
      end) undoes adding one, for fields that already had an options
      array. */
  lemma AddThenRemoveOption(fields: seq<CustomField>, fieldId: string, input: OptionInput)
    requires !IsBlank(input.option)
    requires forall i :: 0 <= i < |fields| && fields[i].id == fieldId ==> fields[i].options.Some?
    ensures RemoveOption(AddOption(fields, fieldId, input).0, fieldId, -1) == fields
  {
    var added := AddOption(fields, fieldId, input).0;
    var r := RemoveOption(added, fieldId, -1);
    forall i | 0 <= i < |fields|
      ensures r[i] == fields[i]
    {
      if fields[i].id == fieldId {
        var o := fields[i].options.value;
        assert added[i].options.value == o + [Trim(input.option)];
        assert RemoveAt(o + [Trim(input.option)], -1) == o;
      }
    }
  }

  // ---- Report fields ----

  /** `addReportField`: blank input is ignored; otherwise its trimmed text
      is appended and the input cleared. */
  function AddReportField(reportFields: seq<string>, input: string): (r: (seq<string>, string))
    ensures IsBlank(input) ==> r == (reportFields, input)
    ensures !IsBlank(input) ==> r == (reportFields + [Trim(input)], "")
    ensures !IsBlank(input) ==> r.0[|reportFields|] != "" && !IsBlank(r.0[|reportFields|])
  {
    TrimBlank(input);
    if Trim(input) == "" then (reportFields, input)
    else
      TrimmedNotBlank(input);
      (reportFields + [Trim(input)], "")
  }

  lemma TrimmedNotBlank(s: string)
    requires Trim(s) != ""
    ensures !IsBlank(Trim(s))
  {
    TrimBlank(s);
  }

  /** `removeReportField`: splices out the element at the index. */
  function RemoveReportField(reportFields: seq<string>, index: int): (r: seq<string>)
    ensures var p := SpliceStart(|reportFields|, index);
      p < |reportFields| ==>
        && |r| == |reportFields| - 1
        && (forall i :: 0 <= i < p ==> r[i] == reportFields[i])
        && (forall i :: p <= i < |r| ==> r[i] == reportFields[i + 1])
    ensures SpliceStart(|reportFields|, index) < |reportFields| ==>
      multiset(r) + multiset{reportFields[SpliceStart(|reportFields|, index)]} == multiset(reportFields)
    ensures SpliceStart(|reportFields|, index) >= |reportFields| ==> r == reportFields
  {
    RemoveAtMultiset(reportFields, index);
    RemoveAt(reportFields, index)
  }

  /** Removing at the old length undoes a non-blank add. */
  lemma AddThenRemoveReportField(reportFields: seq<string>, input: string)
    requires !IsBlank(input)
    ensures RemoveReportField(AddReportField(reportFields, input).0, |reportFields|) == reportFields
  {
    assert (reportFields + [Trim(input)])[..|reportFields|] == reportFields;
  }

  // ---- Gating and validation ----

  /** Custom and report fields apply only to the two biller types. */
  predicate IsBiller(integrationType: string) {
    integrationType == "Online Biller" || integrationType == "Offline Biller"
  }

  predicate HasEmptyName(fields: seq<CustomField>) {
    exists i :: 0 <= i < |fields| && IsBlank(fields[i].name)
  }

  predicate HasBareDropdown(fields: seq<CustomField>) {
    exists i :: 0 <= i < |fields| && fields[i].fieldType == Dropdown && (fields[i].options.None? || |fields[i].options.value| == 0)
  }

  const NamesMessage: string := "All custom fields must have names"
  const OptionsMessage: string := "All dropdown fields must have at least one option"

  /** The checks `handleSubmit` runs before sending, in their order; none
      when the custom field section is hidden. */
  function Validate(integrationType: string, fields: seq<CustomField>): (r: Result<(), string>)
    ensures !IsBiller(integrationType) ==> r.Success?
    ensures IsBiller(integrationType) ==>
      && (HasEmptyName(fields) ==> r == Failure(NamesMessage))
      && (!HasEmptyName(fields) && HasBareDropdown(fields) ==> r == Failure(OptionsMessage))
      && (r.Success? <==> !HasEmptyName(fields) && !HasBareDropdown(fields))
  {
    if !IsBiller(integrationType) then Success(())
    else if exists i :: 0 <= i < |fields| && Trim(fields[i].name) == "" then
      var i :| 0 <= i < |fields| && Trim(fields[i].name) == "";
      TrimBlank(fields[i].name);
      Failure(NamesMessage)
    else if HasBareDropdown(fields) then
      NoBlankName(fields);
      Failure(OptionsMessage)
    else
      NoBlankName(fields);
      Success(())
  }

  lemma NoBlankName(fields: seq<CustomField>)
    requires forall i :: 0 <= i < |fields| ==> Trim(fields[i].name) != ""
    ensures !HasEmptyName(fields)
  {
    forall i | 0 <= i < |fields|
      ensures !IsBlank(fields[i].name)
    {
      TrimBlank(fields[i].name);
    }
  }

  /** The list parts of the request body: both lists only for a biller,
      otherwise both empty. */
  datatype Lists = Lists(customFields: seq<CustomField>, reportFields: seq<string>)

  function SubmittedLists(integrationType: string, fields: seq<CustomField>, reportFields: seq<string>): (r: Lists)
    ensures IsBiller(integrationType) ==> r == Lists(fields, reportFields)
    ensures !IsBiller(integrationType) ==> r == Lists([], [])
  {
    if IsBiller(integrationType) then Lists(fields, reportFields) else Lists([], [])
  }

  /** Whatever passes validation and is sent has only named fields and
      dropdowns with options; a non-biller sends no field definitions at
      all, whatever was entered. */
  lemma SentFieldsAreValid(integrationType: string, fields: seq<CustomField>, reportFields: seq<string>)
    requires Validate(integrationType, fields).Success?
    ensures var sent := SubmittedLists(integrationType, fields, reportFields).customFields;
      forall i :: 0 <= i < |sent| ==> !IsBlank(sent[i].name) && (sent[i].fieldType == Dropdown ==> sent[i].options.Some? && |sent[i].options.value| > 0)
  {
  }

  // ---- Attachments ----

  /** The chosen files (by name) and the description typed for each name. */
  datatype Files = Files(names: seq<string>, descriptions: map<string, string>)

  /** `handleFileChange`: the files are appended and each gets an empty
      description, overwriting one typed for an earlier file of that name. */
  function AddFiles(fs: Files, added: seq<string>): (r: Files)
    ensures r.names == fs.names + added
    ensures forall k :: k in r.descriptions <==> k in fs.descriptions || k in added
    ensures forall i :: 0 <= i < |added| ==> r.descriptions[added[i]] == ""
    ensures forall k :: k in fs.descriptions && k !in added ==> r.descriptions[k] == fs.descriptions[k]
  {
    Files(fs.names + added, map k | k in fs.descriptions.Keys + (set x | x in added) ::
                              if k in added then "" else fs.descriptions[k])
  }

  /** `handleRemoveFile`: every file of that name goes, with its
      description; nothing else changes. */
  function RemoveFile(fs: Files, name: string): (r: Files)
    ensures forall i :: 0 <= i < |r.names| ==> r.names[i] != name
    ensures forall x :: multiset(r.names)[x] == if x != name then multiset(fs.names)[x] else 0
    ensures r.descriptions == fs.descriptions - {name}
  {
    Files(Ordering.Filter(fs.names, (x: string) => x != name), fs.descriptions - {name})
  }

  /** `handleDescriptionChange`: the description of one name is set (even
      for a name with no chosen file); the file list is untouched. */
  function SetDescription(fs: Files, name: string, description: string): (r: Files)
    ensures r.names == fs.names
    ensures r.descriptions.Keys == fs.descriptions.Keys + {name}
    ensures r.descriptions[name] == description
    ensures forall k :: k in fs.descriptions && k != name ==> r.descriptions[k] == fs.descriptions[k]
  {
    fs.(descriptions := fs.descriptions[name := description])
  }

  /** Removing a file forgets whatever description was typed for it: the
      result is the same as if none had been typed. */
  lemma DescriptionForgotten(fs: Files, name: string, description: string)
    ensures RemoveFile(SetDescription(fs, name, description), name) == RemoveFile(fs, name)
  {
    assert fs.descriptions[name := description] - {name} == fs.descriptions - {name};
  }

  /** Choosing a file with a new name and then removing it restores the
      list and the descriptions. */
  lemma {:induction false} AddThenRemoveFile(fs: Files, name: string)
    requires name !in fs.names && name !in fs.descriptions
    ensures RemoveFile(AddFiles(fs, [name]), name) == fs
  {
    var added := AddFiles(fs, [name]);
    FilterKeepsAll(fs.names, name);
    FilterAppendDropped(fs.names, name);
    assert RemoveFile(added, name).names == fs.names;
    AddedDescriptionDropped(fs, name);
  }

  /** The empty description given to a new name is the only one dropped. */
  lemma AddedDescriptionDropped(fs: Files, name: string)
    requires name !in fs.descriptions
    ensures AddFiles(fs, [name]).descriptions - {name} == fs.descriptions
  {
    var d := AddFiles(fs, [name]).descriptions;
    assert (d - {name}).Keys == fs.descriptions.Keys;
    forall k | k in fs.descriptions
      ensures (d - {name})[k] == fs.descriptions[k]
    {
      assert k !in [name];
    }
  }

  lemma {:induction false} FilterKeepsAll(s: seq<string>, name: string)
    requires name !in s
    ensures Ordering.Filter(s, (x: string) => x != name) == s
    decreases |s|
  {
    if |s| > 0 {
      assert s == [s[0]] + s[1..];
      FilterKeepsAll(s[1..], name);
    }
  }

  lemma {:induction false} FilterAppendDropped(s: seq<string>, name: string)
    ensures Ordering.Filter(s + [name], (x: string) => x != name) == Ordering.Filter(s, (x: string) => x != name)
    decreases |s|
  {
    if |s| == 0 {
      assert s + [name] == [name];
      assert [name][1..] == [];
    } else {
      assert (s + [name])[1..] == s[1..] + [name];
      FilterAppendDropped(s[1..], name);
    }
  }
}

=== FILE: creation.dfy ===
/** Workflow creation (backend/db/crud.py `create_workflow`): the `WF#####`
    title numbering and the eight seeded `Pending` steps. */
module Creation {
  import opened Wrappers
  import opened Text
  import opened Model

  const Prefix: string := "WF"

  /** `f"WF{n:05d}"`. */
  function TitleFor(n: int): string {
    Prefix + Format05(n)
  }

  /** The number a title carries: `int(title[2:])` when the title is
      non-empty and starts with "WF"; None when it does not or the parse
      raises. */
  function TitleNumber(title: string): (r: Option<int>)
    ensures r.Some? ==> |title| >= 2 && title[..2] == Prefix
  {
    if |title| >= 2 && title[..2] == Prefix then ParseInt(title[2..]) else None
  }

  /** Every generated title reads back as the number it was generated from. */
  lemma TitleRoundTrip(n: int)
    ensures TitleNumber(TitleFor(n)) == Some(n)
  {
    var t := TitleFor(n);
    assert t[..2] == Prefix;
    assert t[2..] == Format05(n);
    Format05RoundTrip(n);
  }

  /** Generated titles of different numbers differ. */
  lemma TitleInjective(m: int, n: int)
    ensures TitleFor(m) == TitleFor(n) <==> m == n
  {
    TitleRoundTrip(m);
    TitleRoundTrip(n);
  }

  /** The row `order_by(id.desc()).first()` returns: one with the largest id. */
  function LatestIndex(ws: seq<Workflow>): (i: nat)
    requires |ws| > 0
    ensures i < |ws|
    ensures forall j :: 0 <= j < |ws| ==> ws[j].id <= ws[i].id
  {
    if |ws| == 1 then 0
    else
      var i := LatestIndex(ws[..|ws| - 1]);
      if ws[|ws| - 1].id > ws[i].id then |ws| - 1 else i
  }

  /** The workflow number a new title gets. */
  function NextNumber(ws: seq<Workflow>): int
  {
    if |ws| == 0 then 1
    else
      var latest := ws[LatestIndex(ws)];
      match TitleNumber(latest.title)
      case Some(m) => m + 1
      case None => latest.id + 1
  }

  /** The id the database assigns to a new row (largest id plus one). */
  function NewId(ws: seq<Workflow>): (id: nat)
    ensures 1 <= id
    ensures forall j :: 0 <= j < |ws| ==> ws[j].id < id
  {
    if |ws| == 0 then 1 else ws[LatestIndex(ws)].id + 1
  }

  /** Why an insert fails: `title` is a unique column. */
  datatype CreateError = DuplicateTitle(title: string)

  /** `create_workflow`: the body keeps its declared business columns
      only, so a caller's title, step or status never reaches the row; the
      title is generated, the row starts at step 1 "In Progress", and
      steps 1..8 are seeded `Pending`. An insert whose title already exists violates the
      unique constraint and changes nothing. */
  function Create(st: Store, payload: map<string, Value>, reportFields: Option<seq<string>>, now: nat): (r: Result<(Store, Workflow), CreateError>)
    ensures r.Failure? <==> exists j :: 0 <= j < |st.workflows| && st.workflows[j].title == TitleFor(NextNumber(st.workflows))
    ensures r.Success? ==>
      var (st', w) := r.value;
      && st' == st.(workflows := st.workflows + [w])
      && w.title == TitleFor(NextNumber(st.workflows))
      && w.id == NewId(st.workflows)
      && (forall j :: 0 <= j < |st.workflows| ==> st.workflows[j].id < w.id)
      && w.currentStep == 1
      && w.status == InProgress
      && (forall i :: 0 <= i < 8 ==> w.ledger[i] == Cleared)
      && (forall k :: k in RecordKeys ==> k !in w.fields)
      && (forall k :: k in payload && k !in RecordKeys ==> k in w.fields && w.fields[k] == payload[k])
      && (forall k :: k in WaiveFlags && k !in payload ==> k in w.fields && w.fields[k] == Flag(false))
  {
    var title := TitleFor(NextNumber(st.workflows));
    if exists j :: 0 <= j < |st.workflows| && st.workflows[j].title == title then
      Failure(DuplicateTitle(title))
    else
      var w := NewRow(st.workflows, payload, reportFields, now);
      Success((st.(workflows := st.workflows + [w]), w))
  }

  /** The row `create_workflow` inserts: generated title, fresh id, the
      payload's columns with their defaults, step 1 "In Progress", and all
      eight steps `Pending`. */
  function NewRow(ws: seq<Workflow>, payload: map<string, Value>, reportFields: Option<seq<string>>, now: nat): (w: Workflow)
    ensures w.title == TitleFor(NextNumber(ws))
    ensures w.id == NewId(ws) && forall j :: 0 <= j < |ws| ==> ws[j].id < w.id
    ensures w.currentStep == 1 && w.status == InProgress
    ensures forall i :: 0 <= i < 8 ==> w.ledger[i] == Cleared
    ensures forall k :: k in RecordKeys ==> k !in w.fields
    ensures forall k :: k in payload && k !in RecordKeys ==> k in w.fields && w.fields[k] == payload[k]
    ensures forall k :: k in WaiveFlags && k !in payload ==> k in w.fields && w.fields[k] == Flag(false)
  {
    WaiveFlagsDeclared();
    Workflow(
      NewId(ws), TitleFor(NextNumber(ws)), WithColumnDefaults(Declared(payload)), reportFields,
      1, InProgress, now, now,
      [Cleared, Cleared, Cleared, Cleared, Cleared, Cleared, Cleared, Cleared])
  }

  /** No two workflows share a title. */
  predicate TitlesDistinct(ws: seq<Workflow>) {
    forall i, j :: 0 <= i < j < |ws| ==> ws[i].title != ws[j].title
  }

  /** Every title that carries a number carries one below the next number
      to be handed out. */
  predicate WellNumbered(ws: seq<Workflow>) {
    forall j :: 0 <= j < |ws| && TitleNumber(ws[j].title).Some? ==> TitleNumber(ws[j].title).value < NextNumber(ws)
  }

  /** A row appended with an id above all others becomes the latest. */
  lemma {:induction false} LatestOfAppend(ws: seq<Workflow>, w: Workflow)
    requires forall j :: 0 <= j < |ws| ==> ws[j].id < w.id
    ensures LatestIndex(ws + [w]) == |ws|
  {
    if |ws| > 0 {
      assert (ws + [w])[..|ws|] == ws;
    }
  }

  /** The title a create would generate is not yet taken. */
  lemma NextTitleFresh(ws: seq<Workflow>)
    requires WellNumbered(ws)
    ensures forall j :: 0 <= j < |ws| ==> ws[j].title != TitleFor(NextNumber(ws))
  {
    var n := NextNumber(ws);
    TitleRoundTrip(n);
    forall j | 0 <= j < |ws|
      ensures ws[j].title != TitleFor(n)
    {
      assert TitleNumber(ws[j].title) != Some(n);
    }
  }

  lemma AppendKeepsDistinct(ws: seq<Workflow>, w: Workflow)
    requires TitlesDistinct(ws)
    requires forall j :: 0 <= j < |ws| ==> ws[j].title != w.title
    ensures TitlesDistinct(ws + [w])
  {
  }

  lemma AppendKeepsWellNumbered(ws: seq<Workflow>, w: Workflow)
    requires WellNumbered(ws)
    requires forall j :: 0 <= j < |ws| ==> ws[j].id < w.id
    requires TitleNumber(w.title) == Some(NextNumber(ws))
    ensures NextNumber(ws + [w]) == NextNumber(ws) + 1
    ensures WellNumbered(ws + [w])
  {
    LatestOfAppend(ws, w);
    var ws' := ws + [w];
    forall j | 0 <= j < |ws'| && TitleNumber(ws'[j].title).Some?
      ensures TitleNumber(ws'[j].title).value < NextNumber(ws')
    {
      if j < |ws| {
        assert ws'[j] == ws[j];
      }
    }
  }

  /** Sequential creation never trips the unique constraint: on a store
      whose titles are distinct and below the next number, a create
      succeeds and leaves the store in that shape again. */
  lemma CreateKeepsTitlesUnique(st: Store, payload: map<string, Value>, reportFields: Option<seq<string>>, now: nat)
    requires TitlesDistinct(st.workflows) && WellNumbered(st.workflows)
    ensures Create(st, payload, reportFields, now).Success?
    ensures var st' := Create(st, payload, reportFields, now).value.0;
      TitlesDistinct(st'.workflows) && WellNumbered(st'.workflows)
  {
    var ws := st.workflows;
    NextTitleFresh(ws);
    var r := Create(st, payload, reportFields, now);
    assert r.Success?;
    var w := r.value.1;
    TitleRoundTrip(NextNumber(ws));
    AppendKeepsDistinct(ws, w);
    AppendKeepsWellNumbered(ws, w);
  }

  /** `count` creates on an empty store. */
  function CreateMany(count: nat, now: nat): Store
  {
    CreateFrom(EmptyStore, count, now)
  }

  /** `count` more creates on `st`; a create that fails leaves the store as
      it was. */
  function CreateFrom(st: Store, count: nat, now: nat): Store
    decreases count
  {
    if count == 0 then st
    else
      var next := match Create(st, map[], None, now)
        case Success((st', _)) => st'
        case Failure(_) => st;
      CreateFrom(next, count - 1, now)
  }

  /** The shape sequential creation gives a store: ids 1..c, titles
      WF00001..WF{c}. */
  predicate Canonical(ws: seq<Workflow>, c: nat) {
    && |ws| == c
    && forall i :: 0 <= i < c ==> ws[i].id == i + 1 && ws[i].title == TitleFor(i + 1)
  }

  lemma NextNumberOfCanonical(ws: seq<Workflow>, c: nat)
    requires Canonical(ws, c)
    ensures NextNumber(ws) == c + 1
    ensures NewId(ws) == c + 1
  {
    if c > 0 {
      var i := LatestIndex(ws);
      assert ws[c - 1].id <= ws[i].id;
      assert i == c - 1;
      TitleRoundTrip(c);
    }
  }

  lemma CanonicalIsWellNumbered(ws: seq<Workflow>, c: nat)
    requires Canonical(ws, c)
    ensures TitlesDistinct(ws) && WellNumbered(ws)
  {
    CanonicalDistinct(ws, c);
    NextNumberOfCanonical(ws, c);
    forall j | 0 <= j < |ws| && TitleNumber(ws[j].title).Some?
      ensures TitleNumber(ws[j].title).value < NextNumber(ws)
    {
      TitleRoundTrip(j + 1);
    }
  }

  lemma CanonicalDistinct(ws: seq<Workflow>, c: nat)
    requires Canonical(ws, c)
    ensures TitlesDistinct(ws)
  {
    forall i, j | 0 <= i < j < |ws|
      ensures ws[i].title != ws[j].title
    {
      assert ws[i].title == TitleFor(i + 1) && ws[j].title == TitleFor(j + 1);
      TitleInjective(i + 1, j + 1);
    }
  }

  /** Starting from an empty database, the i-th workflow created gets id i
      and title `WF` followed by i zero-padded: WF00001, WF00002, ... */
  lemma SequentialTitles(count: nat, now: nat)
    ensures Canonical(CreateMany(count, now).workflows, count)
  {
    CreateFromCanonical(EmptyStore, 0, count, count, now);
  }

  /** Creates on a store numbered 1..c go on numbering: after `count` more
      the store is numbered 1..n, for n = c + count. */
  lemma {:induction false} CreateFromCanonical(st: Store, c: nat, count: nat, n: nat, now: nat)
    requires Canonical(st.workflows, c) && n == c + count
    ensures Canonical(CreateFrom(st, count, now).workflows, n)
    decreases count
  {
    if count > 0 {
      CanonicalCreate(st, c, now);
      var st' := Create(st, map[], None, now).value.0;
      CreateFromCanonical(st', c + 1, count - 1, n, now);
      assert CreateFrom(st, count, now) == CreateFrom(st', count - 1, now);
    }
  }

  /** On a store numbered 1..c, an empty create succeeds and numbers the
      new row c + 1. */
  lemma CanonicalCreate(st: Store, c: nat, now: nat)
    requires Canonical(st.workflows, c)
    ensures Create(st, map[], None, now).Success?
    ensures Canonical(Create(st, map[], None, now).value.0.workflows, c + 1)
  {
    CanonicalIsWellNumbered(st.workflows, c);
    CreateKeepsTitlesUnique(st, map[], None, now);
    NextNumberOfCanonical(st.workflows, c);
    var r := Create(st, map[], None, now);
    CanonicalSnoc(st.workflows, r.value.1, c);
  }

  lemma CanonicalSnoc(ws: seq<Workflow>, w: Workflow, c: nat)
    requires Canonical(ws, c) && w.id == c + 1 && w.title == TitleFor(c + 1)
    ensures Canonical(ws + [w], c + 1)
  {
    var ws' := ws + [w];
    forall i | 0 <= i < c + 1
      ensures ws'[i].id == i + 1 && ws'[i].title == TitleFor(i + 1)
    {
      if i < c {
        assert ws'[i] == ws[i];
      }
    }
  }
}

=== FILE: enrich.dfy ===
/** Name enrichment of src/direct_api.ts: building an id-to-names map from
    the names endpoint's answer, and overwriting the two display names of
    listed workflows from it. The fetch itself is an input. */
module Enrich {
  import opened Model
  import Api

  datatype Names = Names(biller: Value, company: Value)

  /** One element of the endpoint's JSON array. */
  datatype NameItem = NameItem(id: int, billerName: Value, companyName: Value)

  /** The parsed body: an array, or anything else (null, an object, ...). */
  datatype Body = Array(items: seq<NameItem>) | NotArray(falsy: bool)

  /** What the fetch produced: a thrown error (network or JSON parse), a
      non-ok status, or a body. */
  datatype Response = Thrown | NotOk(status: int) | Ok(body: Body)

  const NotSpecified: Value := Text("Not specified")

  /** `x || 'Not specified'`. */
  function OrNotSpecified(v: Value): (r: Value)
    ensures !Falsy(r)
    ensures !Falsy(v) ==> r == v
  {
    if Falsy(v) then NotSpecified else v
  }

  function NamesOf(item: NameItem): Names {
    Names(OrNotSpecified(item.billerName), OrNotSpecified(item.companyName))
  }

  /** The ids of the array. */
  function Ids(items: seq<NameItem>): set<int> {
    set i | 0 <= i < |items| :: items[i].id
  }

  /** No later item has the same id. */
  predicate IsLastOfId(items: seq<NameItem>, i: int)
    requires 0 <= i < |items|
  {
    forall j :: i < j < |items| ==> items[j].id != items[i].id
  }

  /** `data.forEach(item => namesMap.set(item.id, ...))`: every id is a
      key, a repeated id keeps its last item's names, and no name is
      falsy. */
  function FromItems(items: seq<NameItem>): (m: map<int, Names>)
    ensures m.Keys == Ids(items)
    ensures forall i :: 0 <= i < |items| && IsLastOfId(items, i) ==> m[items[i].id] == NamesOf(items[i])
    ensures forall k :: k in m ==> !Falsy(m[k].biller) && !Falsy(m[k].company)
    decreases |items|
  {
    if |items| == 0 then map[]
    else
      var init := items[..|items| - 1];
      var last := items[|items| - 1];
      IdsSnoc(items);
      LaterIdsInPrefix(items);
      FromItems(init)[last.id := NamesOf(last)]
  }

  lemma IdsSnoc(items: seq<NameItem>)
    requires |items| > 0
    ensures Ids(items) == Ids(items[..|items| - 1]) + {items[|items| - 1].id}
  {
    var init := items[..|items| - 1];
    forall k | k in Ids(items) ensures k in Ids(init) + {items[|items| - 1].id} {
      var i :| 0 <= i < |items| && items[i].id == k;
      if i < |items| - 1 { assert init[i] == items[i]; }
    }
    forall k | k in Ids(init) ensures k in Ids(items) {
      var i :| 0 <= i < |init| && init[i].id == k;
      assert items[i] == init[i];
    }
  }

  /** An item with no later twin in the whole list is either the last
      item or has no later twin in the prefix and a different id. */
  lemma LaterIdsInPrefix(items: seq<NameItem>)
    requires |items| > 0
    ensures forall i :: 0 <= i < |items| - 1 && IsLastOfId(items, i) ==>
      IsLastOfId(items[..|items| - 1], i) && items[i].id != items[|items| - 1].id && items[..|items| - 1][i] == items[i]
  {
    var init := items[..|items| - 1];
    forall i | 0 <= i < |items| - 1 && IsLastOfId(items, i)
      ensures IsLastOfId(init, i)
    {
      forall j | i < j < |init| ensures init[j].id != init[i].id {
        assert init[j] == items[j] && init[i] == items[i];
      }
    }
  }

  /** The fixed table used when the endpoint answers with nothing usable:
      ids 1..9, every name non-empty. */
  function Fallback(): (m: map<int, Names>)
    ensures forall k :: k in m <==> 1 <= k <= 9
    ensures forall k :: k in m ==> !Falsy(m[k].biller) && !Falsy(m[k].company)
  {
    map[1 := Names(Text("Test Biller"), Text("Test Company")),
        2 := Names(Text("ILBC"), Text("ILBC")),
        3 := Names(Text("Nway"), Text("Nway")),
        4 := Names(Text("fasd"), Text("asdf")),
        5 := Names(Text("Test"), Text("Test")),
        6 := Names(Text("MF"), Text("MF")),
        7 := Names(Text("TTT"), Text("TTT")),
        8 := Names(Text("AIA"), Text("AIA")),
        9 := Names(Text("Elite"), Text("Elite"))]
  }

  /** `fetchWorkflowNames`: an error or a non-ok status gives the empty
      map; an empty or non-array body the fallback table; otherwise the
      map built from the array. */
  function BuildNames(r: Response): (m: map<int, Names>)
    ensures r.Thrown? || r.NotOk? ==> m == map[]
    ensures r.Ok? && (r.body.NotArray? || |r.body.items| == 0) ==> m == Fallback()
    ensures r.Ok? && r.body.Array? && |r.body.items| > 0 ==> m == FromItems(r.body.items)
  {
    match r
    case Thrown => map[]
    case NotOk(_) => map[]
    case Ok(body) =>
      if body.NotArray? || |body.items| == 0 then Fallback() else FromItems(body.items)
  }

  /** `enrichWorkflows`: the list keeps its length, order and rows; a row
      whose id has names gets exactly its two display names replaced. */
  function EnrichRows(rows: seq<Api.ListItem>, names: map<int, Names>): (r: seq<Api.ListItem>)
    ensures |r| == |rows|
    ensures forall i :: 0 <= i < |rows| ==> r[i].id == rows[i].id
    ensures forall i :: 0 <= i < |rows| && rows[i].id as int in names ==>
      r[i] == rows[i].(biller := names[rows[i].id as int].biller, company := names[rows[i].id as int].company)
    ensures forall i :: 0 <= i < |rows| && rows[i].id as int !in names ==> r[i] == rows[i]
  {
    seq(|rows|, i requires 0 <= i < |rows| =>
      var w := rows[i];
      if w.id as int in names then w.(biller := names[w.id as int].biller, company := names[w.id as int].company) else w)
  }

  /** Enriching twice changes nothing more, and the empty map (what a
      failed fetch yields) leaves the list as it was. */
  lemma EnrichIdempotent(rows: seq<Api.ListItem>, names: map<int, Names>)
    ensures EnrichRows(EnrichRows(rows, names), names) == EnrichRows(rows, names)
    ensures EnrichRows(rows, map[]) == rows
  {
  }

  /** The names shown after enrichment from any fetch are never empty: the
      listing's own fallbacks or the map's non-falsy values. */
  lemma EnrichedNamesShown(rows: seq<Api.ListItem>, r: Response)
    requires forall i :: 0 <= i < |rows| ==> !Falsy(rows[i].biller) && !Falsy(rows[i].company)
    ensures var e := EnrichRows(rows, BuildNames(r));
      forall i :: 0 <= i < |e| ==> !Falsy(e[i].biller) && !Falsy(e[i].company)
  {
    var m := BuildNames(r);
    assert forall k :: k in m ==> !Falsy(m[k].biller) && !Falsy(m[k].company);
  }
}

=== FILE: lifecycle.dfy ===
/** Properties of the whole pipeline, backend and frontend together: the
    shape every workflow keeps, that 'Done' is never reached, that roles
    bind only the frontend, and runs of sign-offs as the code performs
    them. */
module Lifecycle {
  import opened Wrappers
  import opened Model
  import Creation
  import Signoff
  import Audit
  import Api
  import Access

  /** The shape the backend keeps: a current step in 1..8, never 'Done',
      and no step after the current one approved. */
  predicate Shaped(w: Workflow) {
    && IsStep(w.currentStep)
    && w.status != Done
    && forall i :: w.currentStep <= i < StepCount ==> w.ledger[i].status != Approved
  }

  predicate AllShaped(st: Store) {
    forall j :: 0 <= j < |st.workflows| ==> Shaped(st.workflows[j])
  }

  lemma CreateKeepsShape(st: Store, payload: map<string, Value>, reportFields: Option<seq<string>>, now: nat)
    requires AllShaped(st)
    requires Creation.Create(st, payload, reportFields, now).Success?
    ensures AllShaped(Creation.Create(st, payload, reportFields, now).value.0)
  {
    var (st', w) := Creation.Create(st, payload, reportFields, now).value;
    assert Shaped(w);
    assert forall j :: 0 <= j < |st'.workflows| ==> st'.workflows[j] == if j < |st.workflows| then st.workflows[j] else w;
  }

  lemma ApproveKeepsShape(w: Workflow, k: int, req: Signoff.Request, now: nat)
    requires Shaped(w) && w.currentStep == k
    ensures Shaped(Signoff.Approve(w, k, req, now))
  {
  }

  lemma RejectKeepsShape(w: Workflow, k: int, req: Signoff.Request, now: nat)
    requires Shaped(w) && w.currentStep == k
    ensures Shaped(Signoff.Reject(w, k, req, now))
  {
    var w' := Signoff.Reject(w, k, req, now);
    if Signoff.RestartTarget(k).Some? {
      var t := Signoff.RestartTarget(k).value;
      forall i | t <= i < StepCount
        ensures w'.ledger[i].status != Approved
      {
        if i + 1 == k {
          assert w'.ledger[k - 1].status == SignoffStatus.Rejected;
        }
      }
    }
  }

  /** Every sign-off, whatever its outcome, keeps every workflow shaped. */
  lemma SignoffKeepsShape(st: Store, id: nat, k: int, req: Signoff.Request, now: nat)
    requires AllShaped(st)
    requires Signoff.SignoffStep(st, id, k, req, now).Success?
    ensures AllShaped(Signoff.SignoffStep(st, id, k, req, now).value.0)
  {
    var st' := Signoff.SignoffStep(st, id, k, req, now).value.0;
    if st'.workflows != st.workflows {
      var i := Find(st.workflows, id).value;
      var w := st.workflows[i];
      if req.status == "Approved" {
        ApproveKeepsShape(w, k, req, now);
      } else {
        RejectKeepsShape(w, k, req, now);
      }
      assert forall j :: 0 <= j < |st'.workflows| ==> st'.workflows[j] == if j == i then st'.workflows[i] else st.workflows[j];
    }
  }

  /** A field update never touches step or status. */
  lemma UpdateKeepsShape(st: Store, id: nat, patch: map<string, Value>, now: nat)
    requires AllShaped(st)
    requires Audit.Update(st, id, patch, now).Some?
    ensures AllShaped(Audit.Update(st, id, patch, now).value.0)
  {
    var st' := Audit.Update(st, id, patch, now).value.0;
    var i := Find(st.workflows, id).value;
    assert forall j :: 0 <= j < |st'.workflows| ==> st'.workflows[j] == if j == i then st'.workflows[i] else st.workflows[j];
  }

  /** No workflow has status 'Done'. Nothing ever writes that status: no
      sign-off, reset, update or creation produces it, so a workflow only
      stops by being 'Rejected'. */
  predicate NoneDone(st: Store) {
    forall j :: 0 <= j < |st.workflows| ==> st.workflows[j].status != Done
  }

  /** A successful sign-off never writes 'Done'. */
  lemma SignoffNeverDone(st: Store, id: nat, k: int, req: Signoff.Request, now: nat)
    requires NoneDone(st)
    ensures Signoff.SignoffStep(st, id, k, req, now).Success? ==>
      NoneDone(Signoff.SignoffStep(st, id, k, req, now).value.0)
  {
    if Signoff.SignoffStep(st, id, k, req, now).Success? {
      var st' := Signoff.SignoffStep(st, id, k, req, now).value.0;
      if st'.workflows != st.workflows {
        var i := Find(st.workflows, id).value;
        assert forall j :: 0 <= j < |st'.workflows| ==> st'.workflows[j] == if j == i then st'.workflows[i] else st.workflows[j];
      }
    }
  }

  /** Nor does resetting a step's sign-off. */
  lemma ResetNeverDone(st: Store, id: nat, k: int)
    requires NoneDone(st)
    ensures NoneDone(Signoff.ResetStepSignoff(st, id, k).0)
  {
  }

  /** Nor does the debug reset, as written or as intended. */
  lemma DebugResetNeverDone(st: Store, id: nat, now: nat)
    requires NoneDone(st)
    ensures NoneDone(Api.DebugReset(st, id, now))
    ensures NoneDone(Api.DebugResetIntended(st, id, now))
  {
  }

  /** As written, the debug reset keeps an approved step 2 while moving
      the workflow back to step 1: a shaped workflow past step 2 comes out
      with an approval ahead of its current step. */
  lemma DebugResetKeepsStaleApproval(st: Store, id: nat, now: nat)
    requires Find(st.workflows, id).Some?
    requires st.workflows[Find(st.workflows, id).value].ledger[1].status == Approved
    ensures var i := Find(st.workflows, id).value;
      var w' := Api.DebugReset(st, id, now).workflows[i];
      w'.currentStep == 1 && w'.ledger[1].status == Approved && !Shaped(w')
  {
  }

  /** The reset as its comment describes it keeps every workflow shaped. */
  lemma DebugResetIntendedKeepsShape(st: Store, id: nat, now: nat)
    requires AllShaped(st)
    ensures AllShaped(Api.DebugResetIntended(st, id, now))
  {
    var st' := Api.DebugResetIntended(st, id, now);
    if Find(st.workflows, id).Some? {
      var i := Find(st.workflows, id).value;
      var w' := st'.workflows[i];
      forall x | 1 <= x < StepCount ensures w'.ledger[x].status != Approved {
        if x == 1 && st.workflows[i].ledger[1].status == SignoffStatus.Rejected {
          assert w'.ledger[1] == st.workflows[i].ledger[1];
        }
      }
      assert Shaped(w');
      assert forall j :: 0 <= j < |st'.workflows| ==> st'.workflows[j] == if j == i then w' else st.workflows[j];
    }
  }

  /** After `reset_step_signoff` of step k the workflow is on step k "In
      Progress" with that step Pending, so a sign-off of k takes effect
      again (guards permitting), whatever state the workflow was in. */
  lemma ResetThenSignoffActs(st: Store, id: nat, k: int, req: Signoff.Request, now: nat)
    requires Find(st.workflows, id).Some? && IsStep(k)
    requires req.status == "Approved" || req.status == "Rejected"
    requires AttachmentCount(st.attachments, id) > 0
    ensures var st1 := Signoff.ResetStepSignoff(st, id, k).0;
      var i := Find(st.workflows, id).value;
      && st1.workflows[i].currentStep == k
      && st1.workflows[i].status == InProgress
      && st1.workflows[i].ledger[k - 1] == Cleared
      && Signoff.SignoffStep(st1, id, k, req, now).value.0 != st1
  {
    var st1 := Signoff.ResetStepSignoff(st, id, k).0;
    var i := Find(st.workflows, id).value;
    FindAfterReplace(st.workflows, i, st1.workflows[i], id);
  }

  /** The ungated upload of the updated server lifts the step-4 guard for
      any uploader at any step, where the gated one refuses all but
      Integration at step 4. */
  lemma UngatedUploadUnblocksStep4(st: Store, id: nat, fileName: string, description: Option<string>, req: Signoff.Request, now: nat)
    requires Find(st.workflows, id).Some?
    requires st.workflows[Find(st.workflows, id).value].currentStep == 4
    requires req.status == "Approved"
    ensures var st1 := Api.UploadUngated(st, id, fileName, description).0;
      Signoff.SignoffStep(st1, id, 4, req, now).value.1 == Signoff.StepReturned(Signoff.Decided(Approved, req, now))
  {
    var st1 := Api.UploadUngated(st, id, fileName, description).0;
    assert st1.attachments[|st.attachments|].workflowId == id;
  }

  /** Approving step 8 leaves the workflow at step 8 with its status as it
      was: an "In Progress" workflow stays "In Progress". */
  lemma ApprovingStep8NeverDone(st: Store, id: nat, req: Signoff.Request, now: nat)
    requires Find(st.workflows, id).Some?
    requires st.workflows[Find(st.workflows, id).value].currentStep == 8
    requires req.status == "Approved"
    ensures var r := Signoff.SignoffStep(st, id, 8, req, now);
      var i := Find(st.workflows, id).value;
      && r.Success? && r.value.1.StepReturned?
      && r.value.0.workflows[i].currentStep == 8
      && r.value.0.workflows[i].status == st.workflows[i].status
      && r.value.0.workflows[i].ledger[7].status == Approved
  {
  }

  /** Step 8 stays current after its approval, so it can be approved again,
      and each time another action row is logged. */
  lemma Step8ApprovesAgain(st: Store, id: nat, req: Signoff.Request, now: nat, later: nat)
    requires Find(st.workflows, id).Some?
    requires st.workflows[Find(st.workflows, id).value].currentStep == 8
    requires req.status == "Approved"
    ensures var st1 := Signoff.SignoffStep(st, id, 8, req, now).value.0;
      var r2 := Signoff.SignoffStep(st1, id, 8, req, later);
      && r2.Success? && r2.value.1 == Signoff.StepReturned(Signoff.Decided(Approved, req, later))
      && |r2.value.0.actions| == |st.actions| + 2
  {
    Api.SignoffKeepsFind(st, id, 8, req, now);
  }

  /** Once step k < 8 is approved the workflow has moved on, and signing
      step k again is a silent no-op returning its record. */
  lemma ResignoffIsNoOp(st: Store, id: nat, k: int, req: Signoff.Request, req2: Signoff.Request, now: nat, later: nat)
    requires Find(st.workflows, id).Some? && 1 <= k < StepCount
    requires st.workflows[Find(st.workflows, id).value].currentStep == k
    requires req.status == "Approved"
    requires k != 4 || AttachmentCount(st.attachments, id) > 0
    ensures var st1 := Signoff.SignoffStep(st, id, k, req, now).value.0;
      Signoff.SignoffStep(st1, id, k, req2, later) == Success((st1, Signoff.StepReturned(Signoff.Decided(Approved, req, now))))
  {
    Api.SignoffKeepsFind(st, id, k, req, now);
  }

  /** A workflow halted as 'Rejected' (at step 3, say) can still be
      approved at its current step: it advances and keeps the 'Rejected'
      status. */
  lemma RejectedStillAdvances(st: Store, id: nat, k: int, req: Signoff.Request, now: nat)
    requires Find(st.workflows, id).Some? && 1 <= k < StepCount && k != 4
    requires st.workflows[Find(st.workflows, id).value].currentStep == k
    requires st.workflows[Find(st.workflows, id).value].status == WorkflowStatus.Rejected
    requires req.status == "Approved"
    ensures var i := Find(st.workflows, id).value;
      var w' := Signoff.SignoffStep(st, id, k, req, now).value.0.workflows[i];
      w'.currentStep == k + 1 && w'.status == WorkflowStatus.Rejected
  {
  }

  /** The backend takes the sign-off of a user the frontend would stop:
      the request carries no role, so any name approves any current step
      the guards let through. */
  lemma RolesOnlyInFrontend(st: Store, id: nat, k: int, user: Access.User, remarks: string, now: nat)
    requires Find(st.workflows, id).Some? && IsStep(k)
    requires st.workflows[Find(st.workflows, id).value].currentStep == k
    requires k != 4 || AttachmentCount(st.attachments, id) > 0
    requires !Access.CanSignoff(Some(user), k)
    ensures Access.SubmitSignoff(Some(user), k, Access.Approve, remarks).None?
    ensures var req := Signoff.Request(user.username, "Approved", None, Some(remarks));
      Signoff.SignoffStep(st, id, k, req, now).value.1 == Signoff.StepReturned(Signoff.Decided(Approved, req, now))
  {
  }

  /** A sign-off the frontend sends is always acted on by the backend when
      the step is current: it never falls into the "other decision" no-op. */
  lemma FrontendDecisionsAct(st: Store, id: nat, k: int, user: Access.User, d: Access.Decision, remarks: string, now: nat)
    requires Find(st.workflows, id).Some? && IsStep(k)
    requires st.workflows[Find(st.workflows, id).value].currentStep == k
    requires AttachmentCount(st.attachments, id) > 0
    requires Access.CanSignoff(Some(user), k)
    ensures var req := Access.SubmitSignoff(Some(user), k, d, remarks);
      && req.Some?
      && Signoff.SignoffStep(st, id, k, req.value, now).value.1.StepReturned?
      && Signoff.SignoffStep(st, id, k, req.value, now).value.1.entry.status == (if d == Access.Approve then Approved else SignoffStatus.Rejected)
  {
  }

  /** After step k < 8 is approved, the detail page offers the sign-off
      form for step k + 1 to that step's team: the panel is shown and its
      step reads 'Pending'. */
  lemma NextTeamOffered(st: Store, id: nat, k: int, req: Signoff.Request, now: nat, next: Access.User)
    requires Find(st.workflows, id).Some? && 1 <= k < StepCount
    requires Shaped(st.workflows[Find(st.workflows, id).value])
    requires st.workflows[Find(st.workflows, id).value].currentStep == k
    requires req.status == "Approved"
    requires k != 4 || AttachmentCount(st.attachments, id) > 0
    requires next.role == Access.StepPermissions(k + 1).value[0]
    ensures var st1 := Signoff.SignoffStep(st, id, k, req, now).value.0;
      var d := Api.GetWorkflow(st1, id);
      && d.Success?
      && d.value.currentStep == k + 1
      && Access.PanelShown(d.value)
      && Access.PanelStatus(d.value) == "Pending"
      && Access.FormOffered(Access.PanelStatus(d.value), Some(next), k + 1)
  {
    Api.SignoffKeepsFind(st, id, k, req, now);
    var i := Find(st.workflows, id).value;
    ApproveKeepsShape(st.workflows[i], k, req, now);
  }

  /** After step 8 is approved the panel still shows (the status is not
      'Done') but reports 'Approved', so no one is offered a form again:
      the frontend stops where the backend would let step 8 repeat. */
  lemma FinalStepShowsDecided(st: Store, id: nat, req: Signoff.Request, now: nat, user: Access.User)
    requires Find(st.workflows, id).Some?
    requires Shaped(st.workflows[Find(st.workflows, id).value])
    requires st.workflows[Find(st.workflows, id).value].currentStep == 8
    requires req.status == "Approved"
    ensures var st1 := Signoff.SignoffStep(st, id, 8, req, now).value.0;
      var d := Api.GetWorkflow(st1, id);
      && d.Success?
      && Access.PanelShown(d.value)
      && Access.PanelStatus(d.value) == "Approved"
      && !Access.FormOffered(Access.PanelStatus(d.value), Some(user), 8)
  {
    Api.SignoffKeepsFind(st, id, 8, req, now);
    var i := Find(st.workflows, id).value;
    ApproveKeepsShape(st.workflows[i], 8, req, now);
  }

  /** Approving steps k..8 in turn, with the same request and clock. */
  function ApproveFrom(st: Store, id: nat, k: int, req: Signoff.Request, now: nat): Store
    requires Find(st.workflows, id).Some? && IsStep(k)
    decreases StepCount - k
  {
    var st1 := Signoff.SignoffStep(st, id, k, req, now).value.0;
    Api.SignoffKeepsFind(st, id, k, req, now);
    if k == StepCount then st1 else ApproveFrom(st1, id, k + 1, req, now)
  }

  /** Signing off every step from the current one to 8, with an attachment
      on file, approves them all and leaves the workflow at step 8 with its
      status untouched: the run ends "In Progress", never 'Done'. */
  lemma {:induction false} FullRun(st: Store, id: nat, k: int, req: Signoff.Request, now: nat)
    requires Find(st.workflows, id).Some? && IsStep(k)
    requires st.workflows[Find(st.workflows, id).value].currentStep == k
    requires req.status == "Approved"
    requires AttachmentCount(st.attachments, id) > 0
    ensures var st' := ApproveFrom(st, id, k, req, now);
      var i := Find(st.workflows, id).value;
      && Find(st'.workflows, id) == Some(i)
      && st'.workflows[i].currentStep == StepCount
      && st'.workflows[i].status == st.workflows[i].status
      && (forall j :: k - 1 <= j < StepCount ==> st'.workflows[i].ledger[j] == Signoff.Decided(Approved, req, now))
      && (forall j :: 0 <= j < k - 1 ==> st'.workflows[i].ledger[j] == st.workflows[i].ledger[j])
      && st'.attachments == st.attachments
    decreases StepCount - k
  {
    var st1 := Signoff.SignoffStep(st, id, k, req, now).value.0;
    Api.SignoffKeepsFind(st, id, k, req, now);
    var i := Find(st.workflows, id).value;
    if k < StepCount {
      FullRun(st1, id, k + 1, req, now);
    }
  }
}

=== FILE: model.dfy ===
/** The persisted entities of backend/db/models.py and the in-memory store
    that stands in for the database: a workflow record with its eight-entry
    step ledger, attachments, the edit history (Change Auditor output), and
    the two append-only logs the sign-off code writes (workflow actions and
    rejections). */
module Model {
  import opened Wrappers

  /** A column value of a workflow's business attributes, as Python sees it. */
  datatype Value = Null | Text(s: string) | Number(n: int) | Flag(b: bool)

  /** Python truthiness of a column value (`not v`). */
  predicate Falsy(v: Value) {
    v == Null || v == Text("") || v == Number(0) || v == Flag(false)
  }

  datatype SignoffStatus = Pending | Approved | Rejected

  /** The values the backend writes into `Workflow.status`. `Done` is the
      value the frontend tests for; no backend operation writes it. */
  datatype WorkflowStatus = InProgress | Rejected | Done

  /** One row of `workflow_steps`: the sign-off record of one step. */
  datatype Entry = Entry(status: SignoffStatus, person: Option<string>, date: Option<nat>, remarks: Option<string>)

  /** A step row as created, and as every reset leaves it: `Pending` with
      person, date and remarks cleared (`signoff_status` defaults to
      'Pending'). */
  const Cleared: Entry := Entry(SignoffStatus.Pending, None, None, None)

  const StepCount: nat := 8

  /** The per-workflow step ledger; step k (1..8) is entry k-1. */
  type Ledger = s: seq<Entry> | |s| == 8 witness [Cleared, Cleared, Cleared, Cleared, Cleared, Cleared, Cleared, Cleared]

  predicate IsStep(k: int) {
    1 <= k <= StepCount
  }

  datatype Workflow = Workflow(
    id: nat,
    title: string,
    fields: map<string, Value>,
    reportFields: Option<seq<string>>,
    currentStep: int,
    status: WorkflowStatus,
    submitDate: nat,
    lastUpdated: nat,
    ledger: Ledger)

  /** The keys a request body may carry that are not business columns: the
      record's own columns (id, title, step, status, timestamps) and its
      relationships. The request schemas declare business columns only,
      and the framework drops every undeclared key before the handler
      sees the body. */
  const RecordKeys: set<string> :=
    {"id", "title", "current_step", "status", "submit_date", "last_updated_date", "attachments", "steps", "edit_history"}

  /** A request body as the handler receives it: only its declared
      (business) columns, each with the value sent. */
  function Declared(body: map<string, Value>): (r: map<string, Value>)
    ensures forall k :: k in r <==> k in body && k !in RecordKeys
    ensures forall k :: k in r ==> r[k] == body[k]
  {
    body - RecordKeys
  }

  /** The waive flags are business columns. */
  lemma WaiveFlagsDeclared()
    ensures WaiveFlags !! RecordKeys
  {
  }

  /** `getattr(workflow, key)`: a column never written reads as None. */
  function Field(w: Workflow, key: string): (v: Value)
    ensures key !in w.fields ==> v == Null
  {
    if key in w.fields then w.fields[key] else Null
  }

  datatype Attachment = Attachment(id: nat, workflowId: nat, fileName: string, description: Option<string>, uploadedBy: Option<string>)

  /** One field's change as the auditor records it: stringified old and new
      values, None kept as None. */
  datatype Change = Change(oldValue: Option<string>, newValue: Option<string>)

  /** An `EditHistory` row: it names exactly one workflow and its `changes`
      is a (never null) map from field name to change. */
  datatype EditEntry = EditEntry(id: nat, workflowId: nat, editedBy: Value, editedAt: nat, changes: map<string, Change>)

  /** A `WorkflowRejectionHistory` row. */
  datatype RejectionRecord = RejectionRecord(id: nat, workflowId: nat, stepNumber: int, rejectedBy: string, remarks: Option<string>, restartStep: Option<int>, rejectDate: nat)

  /** What a `WorkflowHistory` row says happened. */
  datatype Action =
    | ApprovedStep(step: int, next: int)
    | RejectedStep(step: int, restart: Option<int>)
    | ManualReset(preservedRejection: bool)

  datatype ActionRecord = ActionRecord(workflowId: nat, action: Action, actionBy: string, actionDate: nat, details: string)

  /** The database: workflows in insertion order plus the append-only tables. */
  datatype Store = Store(
    workflows: seq<Workflow>,
    attachments: seq<Attachment>,
    edits: seq<EditEntry>,
    rejections: seq<RejectionRecord>,
    actions: seq<ActionRecord>)

  const EmptyStore: Store := Store([], [], [], [], [])

  /** `query(Workflow).filter(id == id).first()`: the position of the first
      workflow with that id. */
  function Find(ws: seq<Workflow>, id: nat): (r: Option<nat>)
    ensures r.Some? ==> r.value < |ws| && ws[r.value].id == id
    ensures r.Some? ==> forall j :: 0 <= j < r.value ==> ws[j].id != id
    ensures r.None? <==> forall j :: 0 <= j < |ws| ==> ws[j].id != id
  {
    if |ws| == 0 then None
    else if ws[0].id == id then Some(0)
    else match Find(ws[1..], id)
      case None => None
      case Some(j) => Some(j + 1)
  }

  /** Rewriting a row without touching its id leaves every lookup as it was. */
  lemma {:induction false} FindAfterReplace(ws: seq<Workflow>, i: nat, w: Workflow, id: nat)
    requires i < |ws| && w.id == ws[i].id
    ensures Find(ws[i := w], id) == Find(ws, id)
    decreases |ws|
  {
    if i > 0 {
      assert ws[i := w][1..] == ws[1..][i - 1 := w];
      FindAfterReplace(ws[1..], i - 1, w, id);
    }
  }

  /** `query(Attachment).filter(workflow_id == id).count()`. */
  function AttachmentCount(atts: seq<Attachment>, id: nat): (n: nat)
    ensures n <= |atts|
    ensures n == 0 <==> forall j :: 0 <= j < |atts| ==> atts[j].workflowId != id
  {
    if |atts| == 0 then 0
    else AttachmentCount(atts[..|atts| - 1], id) + (if atts[|atts| - 1].workflowId == id then 1 else 0)
  }

  /** The columns whose model declares `default=False`. */
  const WaiveFlags: set<string> := {"fee_waive", "agent_toggle", "setup_fee_waive", "maintenance_fee_waive", "portal_fee_waive"}

  /** The business columns of a new row: the payload, with every waive flag
      the payload leaves out taking its column default False. */
  function WithColumnDefaults(payload: map<string, Value>): (fields: map<string, Value>)
    ensures fields.Keys == payload.Keys + WaiveFlags
    ensures forall k :: k in WaiveFlags && k !in payload ==> fields[k] == Flag(false)
    ensures forall k :: k in payload ==> fields[k] == payload[k]
  {
    map k | k in payload.Keys + WaiveFlags :: if k in payload then payload[k] else Flag(false)
  }
}

=== FILE: ordering.dfy ===
/** `WHERE column = ?` and `ORDER BY key DESC` over an in-memory table. The
    database leaves the order of equal keys open; the model keeps insertion
    order among them. */
module Ordering {

  predicate SortedDesc<T>(s: seq<T>, key: T -> int) {
    forall i, j :: 0 <= i < j < |s| ==> key(s[i]) >= key(s[j])
  }

  /** Places `x` before the first element whose key is not larger. */
  function InsertDesc<T>(x: T, s: seq<T>, key: T -> int): (r: seq<T>)
    requires SortedDesc(s, key)
    ensures SortedDesc(r, key)
    ensures multiset(r) == multiset(s) + multiset{x}
    ensures |r| == |s| + 1
  {
    if |s| == 0 then [x]
    else if key(x) >= key(s[0]) then [x] + s
    else
      var rest := InsertDesc(x, s[1..], key);
      assert s == [s[0]] + s[1..];
      BoundedByHead(s, x, rest, key);
      [s[0]] + rest
  }

  /** Every element of a permutation of `s[1..]` plus `x` has a key no
      larger than the head's, when neither `x` nor `s` exceeds it. */
  lemma BoundedByHead<T>(s: seq<T>, x: T, rest: seq<T>, key: T -> int)
    requires |s| > 0 && SortedDesc(s, key) && key(x) < key(s[0])
    requires multiset(rest) == multiset(s[1..]) + multiset{x}
    requires SortedDesc(rest, key)
    ensures SortedDesc([s[0]] + rest, key)
  {
    forall i | 0 <= i < |rest|
      ensures key(rest[i]) <= key(s[0])
    {
      assert rest[i] in multiset(rest);
      if rest[i] != x {
        assert rest[i] in multiset(s[1..]);
        var j :| 0 <= j < |s[1..]| && s[1..][j] == rest[i];
        assert s[j + 1] == rest[i];
      }
    }
  }

  /** The rows of `s` ordered by `key`, largest first. */
  function SortDesc<T>(s: seq<T>, key: T -> int): (r: seq<T>)
    ensures SortedDesc(r, key)
    ensures multiset(r) == multiset(s)
    ensures |r| == |s|
  {
    if |s| == 0 then []
    else
      assert s == [s[0]] + s[1..];
      InsertDesc(s[0], SortDesc(s[1..], key), key)
  }

  /** The rows of `s` that satisfy `p`, in their original order. */
  function Filter<T(!new)>(s: seq<T>, p: T -> bool): (r: seq<T>)
    ensures forall i :: 0 <= i < |r| ==> p(r[i])
    ensures forall x :: multiset(r)[x] == if p(x) then multiset(s)[x] else 0
    ensures |r| <= |s|
  {
    if |s| == 0 then []
    else
      assert s == [s[0]] + s[1..];
      if p(s[0]) then [s[0]] + Filter(s[1..], p) else Filter(s[1..], p)
  }

  /** Filtering a concatenation filters each part: the kept rows stay in
      the order the input has them. */
  lemma {:induction false} FilterAppend<T(!new)>(a: seq<T>, b: seq<T>, p: T -> bool)
    ensures Filter(a + b, p) == Filter(a, p) + Filter(b, p)
    decreases |a|
  {
    if |a| > 0 {
      assert (a + b)[1..] == a[1..] + b;
      FilterAppend(a[1..], b, p);
    } else {
      assert a + b == b;
    }
  }

  /** A single row is kept exactly when it satisfies the predicate. */
  lemma FilterOne<T(!new)>(x: T, p: T -> bool)
    ensures Filter([x], p) == if p(x) then [x] else []
  {
  }

  /** `WHERE p ORDER BY key DESC`: exactly the rows satisfying `p`, each as
      often as in `s`, and none at all when no row satisfies it. */
  lemma SelectSorted<T(!new)>(s: seq<T>, p: T -> bool, key: T -> int)
    ensures var r := SortDesc(Filter(s, p), key);
      && (forall i :: 0 <= i < |r| ==> p(r[i]))
      && (forall x :: multiset(r)[x] == if p(x) then multiset(s)[x] else 0)
      && ((forall j :: 0 <= j < |s| ==> !p(s[j])) ==> r == [])
  {
    var m := Filter(s, p);
    var r := SortDesc(m, key);
    forall i | 0 <= i < |r| ensures p(r[i]) {
      assert r[i] in multiset(r);
    }
    if |r| > 0 {
      assert r[0] in multiset(r) && p(r[0]);
      assert r[0] in multiset(s);
      var j :| 0 <= j < |s| && s[j] == r[0];
      assert p(s[j]);
    }
  }

  function Map<T, U>(s: seq<T>, f: T -> U): (r: seq<U>)
    ensures |r| == |s|
    ensures forall i :: 0 <= i < |s| ==> r[i] == f(s[i])
  {
    if |s| == 0 then [] else [f(s[0])] + Map(s[1..], f)
  }

  lemma {:induction false} MapAppend<T, U>(a: seq<T>, b: seq<T>, f: T -> U)
    ensures Map(a + b, f) == Map(a, f) + Map(b, f)
    decreases |a|
  {
    if |a| == 0 {
      assert a + b == b;
    } else {
      assert (a + b)[1..] == a[1..] + b;
      MapAppend(a[1..], b, f);
    }
  }

  /** Taking one row out of the middle takes its image out of the mapped
      rows' multiset. */
  lemma MapWithout<T, U>(front: seq<T>, x: T, back: seq<T>, f: T -> U)
    ensures multiset(Map(front + [x] + back, f)) == multiset(Map(front + back, f)) + multiset{f(x)}
  {
    MapAppend(front + [x], back, f);
    MapAppend(front, [x], f);
    MapAppend(front, back, f);
  }

  /** Cutting one row out of a sequence. */
  lemma CutAt<T>(b: seq<T>, k: int)
    requires 0 <= k < |b|
    ensures b == b[..k] + [b[k]] + b[k + 1..]
    ensures multiset(b[..k] + b[k + 1..]) == multiset(b) - multiset{b[k]}
  {
    assert b == b[..k] + [b[k]] + b[k + 1..];
    assert multiset(b) == multiset(b[..k]) + multiset{b[k]} + multiset(b[k + 1..]);
  }

  /** Mapping a permutation gives a permutation: the mapped rows of two
      orderings of the same rows are the same multiset. */
  lemma {:induction false} MapPermutation<T, U>(a: seq<T>, b: seq<T>, f: T -> U)
    requires multiset(a) == multiset(b)
    ensures multiset(Map(a, f)) == multiset(Map(b, f))
    decreases |a|
  {
    assert |a| == |multiset(a)| == |b|;
    if |a| > 0 {
      var x := a[0];
      assert x in multiset(b);
      var k :| 0 <= k < |b| && b[k] == x;
      CutAt(b, k);
      CutAt(a, 0);
      assert a[..0] + a[1..] == a[1..];
      MapPermutation(a[1..], b[..k] + b[k + 1..], f);
      MapWithout(a[..0], x, a[1..], f);
      MapWithout(b[..k], x, b[k + 1..], f);
    }
  }
}

=== FILE: signoff.dfy ===
/** The step sign-off state machine of backend/db/crud.py: `signoff_step`,
    its two attachment guards, the rejection-restart helper
    `fix_workflow_after_rejection` and `reset_step_signoff`. Each operation
    is one atomic change of the store. */
module Signoff {
  import opened Wrappers
  import opened Model

  /** A sign-off request body. The decision is free text: only "Approved"
      and "Rejected" are acted on. No role travels with it. */
  datatype Request = Request(person: string, status: string, date: Option<nat>, remarks: Option<string>)

  /** What `signoff_step` returns when it does not raise: the step row, or
      the `{"error": ...}` object of a guard. */
  datatype Outcome = StepReturned(entry: Entry) | GuardRefused(message: string)

  /** The `NoResultFound` exceptions `signoff_step` raises. */
  datatype NotFound = WorkflowMissing(id: nat) | StepMissing(id: nat, step: int)

  const Step4Message: string := "Cannot approve step 4 without adding GL Detail. Integration Team must upload required GL Detail documentation."
  const Step6Message: string := "Cannot reject step 6 without adding GL Detail. Finance Team must upload required GL Detail documentation when rejecting."
  const NoRemarks: string := "No remarks provided"

  /** The step a rejection sends the workflow back to: 2 -> 1, 5 and 6 -> 4;
      any other step has no restart and halts the workflow. */
  function RestartTarget(k: int): (t: Option<int>)
    ensures t == Some(1) <==> k == 2
    ensures t == Some(4) <==> k == 5 || k == 6
    ensures t.None? <==> k != 2 && k != 5 && k != 6
    ensures t.Some? ==> 1 <= t.value < k
  {
    if k == 2 then Some(1) else if k == 5 || k == 6 then Some(4) else None
  }

  /** `remarks or "No remarks provided"`: empty remarks count as none. */
  function Details(remarks: Option<string>): (d: string)
    ensures d != ""
    ensures remarks.Some? && remarks.value != "" ==> d == remarks.value
  {
    if remarks.None? || remarks.value == "" then NoRemarks else remarks.value
  }

  /** The step an approval of step k moves to: the next one, but never past 8. */
  function NextStep(k: int): (n: int)
    requires IsStep(k)
    ensures IsStep(n)
    ensures k < StepCount ==> n == k + 1
    ensures k == StepCount ==> n == k
  {
    if k < StepCount then k + 1 else StepCount
  }

  /** The sign-off record a decision writes: person, date (the request's or
      now) and remarks. */
  function Decided(status: SignoffStatus, req: Request, now: nat): Entry {
    Entry(status, Some(req.person), Some(req.date.GetOr(now)), req.remarks)
  }

  /** Approval of step k: k takes the record, every later step is reset,
      earlier steps are untouched. */
  function ApproveLedger(l: Ledger, k: int, e: Entry): (r: Ledger)
    requires IsStep(k)
    ensures r[k - 1] == e
    ensures forall i :: 0 <= i < k - 1 ==> r[i] == l[i]
    ensures forall i :: k <= i < StepCount ==> r[i] == Cleared
  {
    seq(8, i requires 0 <= i < 8 => if i == k - 1 then e else if i >= k then Cleared else l[i])
  }

  /** The approval branch of `signoff_step` on the workflow row. */
  function Approve(w: Workflow, k: int, req: Request, now: nat): (w': Workflow)
    requires IsStep(k)
    ensures w'.ledger[k - 1] == Decided(Approved, req, now)
    ensures k < StepCount ==> w'.currentStep == k + 1
    ensures k == StepCount ==> w'.currentStep == StepCount
    ensures forall i :: 0 <= i < k - 1 ==> w'.ledger[i] == w.ledger[i]
    ensures forall i :: k <= i < StepCount ==> w'.ledger[i] == Cleared
    ensures w' == w.(currentStep := w'.currentStep, ledger := w'.ledger)
  {
    w.(currentStep := NextStep(k), ledger := ApproveLedger(w.ledger, k, Decided(Approved, req, now)))
  }

  function RestartLedger(l: Ledger, from: int, to: int): Ledger
  {
    seq(8, i requires 0 <= i < 8 => if i + 1 == to || (to <= i && i + 1 != from) then Cleared else l[i])
  }

  /** `fix_workflow_after_rejection(from, to)`: step `to` is reset, the
      workflow goes back to `to` "In Progress", and every later step is
      reset except `from`, which keeps its rejection record. */
  function Restart(w: Workflow, from: int, to: int): (w': Workflow)
    ensures w'.currentStep == to
    ensures w'.status == InProgress
    ensures IsStep(to) ==> w'.ledger[to - 1] == Cleared
    ensures forall i :: 0 <= i < StepCount && to <= i && i + 1 != from ==> w'.ledger[i] == Cleared
    ensures IsStep(from) && to < from ==> w'.ledger[from - 1] == w.ledger[from - 1]
    ensures forall i :: 0 <= i < StepCount && i < to - 1 ==> w'.ledger[i] == w.ledger[i]
    ensures w' == w.(currentStep := to, status := InProgress, ledger := w'.ledger)
  {
    w.(currentStep := to, status := InProgress, ledger := RestartLedger(w.ledger, from, to))
  }

  /** The rejection branch of `signoff_step` on the workflow row: step k is
      marked Rejected, then either the restart rule applies or, without one,
      the workflow's status becomes 'Rejected' where it stands. */
  function Reject(w: Workflow, k: int, req: Request, now: nat): (w': Workflow)
    requires IsStep(k)
    ensures w'.ledger[k - 1] == Decided(SignoffStatus.Rejected, req, now)
    ensures RestartTarget(k).None? ==>
      w' == w.(status := WorkflowStatus.Rejected, ledger := w.ledger[k - 1 := Decided(SignoffStatus.Rejected, req, now)])
    ensures RestartTarget(k).Some? ==>
      var t := RestartTarget(k).value;
      && w'.currentStep == t
      && w'.status == InProgress
      && w'.ledger[t - 1] == Cleared
      && (forall i :: t <= i < StepCount && i + 1 != k ==> w'.ledger[i] == Cleared)
      && (forall i :: 0 <= i < t - 1 ==> w'.ledger[i] == w.ledger[i])
  {
    var marked := w.(ledger := w.ledger[k - 1 := Decided(SignoffStatus.Rejected, req, now)]);
    match RestartTarget(k)
    case Some(t) => Restart(marked, k, t)
    case None => marked.(status := WorkflowStatus.Rejected)
  }

  /** `signoff_step`. A missing workflow or step raises. A sign-off of any
      step but the current one returns that step and changes nothing, as
      does a decision other than "Approved" or "Rejected". Approving step 4
      or rejecting step 6 of a workflow without attachments returns the
      guard's error and changes nothing. Otherwise exactly the workflow's
      row changes and the logs grow by one action (and, for a rejection,
      one rejection record). */
  function SignoffStep(st: Store, id: nat, k: int, req: Request, now: nat): (r: Result<(Store, Outcome), NotFound>)
    ensures Find(st.workflows, id).None? ==> r == Failure(WorkflowMissing(id))
    ensures Find(st.workflows, id).Some? && !IsStep(k) ==> r == Failure(StepMissing(id, k))
    ensures r.Failure? ==> Find(st.workflows, id).None? || !IsStep(k)
    ensures Find(st.workflows, id).Some? && IsStep(k) ==>
      var i := Find(st.workflows, id).value;
      var w := st.workflows[i];
      var guarded := AttachmentCount(st.attachments, id) == 0;
      && r.Success?
      && (w.currentStep != k ==> r.value == (st, StepReturned(w.ledger[k - 1])))
      && (w.currentStep == k && req.status != "Approved" && req.status != "Rejected" ==>
            r.value == (st, StepReturned(w.ledger[k - 1])))
      && (w.currentStep == k && req.status == "Approved" && k == 4 && guarded ==>
            r.value == (st, GuardRefused(Step4Message)))
      && (w.currentStep == k && req.status == "Rejected" && k == 6 && guarded ==>
            r.value == (st, GuardRefused(Step6Message)))
      && (w.currentStep == k && req.status == "Approved" && !(k == 4 && guarded) ==>
            r.value == (st.(workflows := st.workflows[i := Approve(w, k, req, now)],
                            actions := st.actions + [ActionRecord(id, ApprovedStep(k, NextStep(k)), req.person, now, Details(req.remarks))]),
                        StepReturned(Decided(Approved, req, now))))
      && (w.currentStep == k && req.status == "Rejected" && !(k == 6 && guarded) ==>
            r.value == (st.(workflows := st.workflows[i := Reject(w, k, req, now)],
                            rejections := st.rejections + [RejectionRecord(|st.rejections| + 1, id, k, req.person, req.remarks, RestartTarget(k), now)],
                            actions := st.actions + [ActionRecord(id, RejectedStep(k, RestartTarget(k)), req.person, now, Details(req.remarks))]),
                        StepReturned(Decided(SignoffStatus.Rejected, req, now))))
  {
    match Find(st.workflows, id)
    case None => Failure(WorkflowMissing(id))
    case Some(i) =>
      var w := st.workflows[i];
      if !IsStep(k) then Failure(StepMissing(id, k))
      else if w.currentStep != k then Success((st, StepReturned(w.ledger[k - 1])))
      else if req.status == "Approved" then
        if k == 4 && AttachmentCount(st.attachments, id) == 0 then Success((st, GuardRefused(Step4Message)))
        else
          var w' := Approve(w, k, req, now);
          var act := ActionRecord(id, ApprovedStep(k, NextStep(k)), req.person, now, Details(req.remarks));
          Success((st.(workflows := st.workflows[i := w'], actions := st.actions + [act]), StepReturned(w'.ledger[k - 1])))
      else if req.status == "Rejected" then
        if k == 6 && AttachmentCount(st.attachments, id) == 0 then Success((st, GuardRefused(Step6Message)))
        else
          var w' := Reject(w, k, req, now);
          var restart := RestartTarget(k);
          var rec := RejectionRecord(|st.rejections| + 1, id, k, req.person, req.remarks, restart, now);
          var act := ActionRecord(id, RejectedStep(k, restart), req.person, now, Details(req.remarks));
          Success((st.(workflows := st.workflows[i := w'], rejections := st.rejections + [rec], actions := st.actions + [act]),
                   StepReturned(w'.ledger[k - 1])))
      else Success((st, StepReturned(w.ledger[k - 1])))
  }

  /** `reset_step_signoff`: when the step row exists, it is reset to
      Pending and the workflow is put back on that step "In Progress";
      otherwise nothing changes and no step is returned. */
  function ResetStepSignoff(st: Store, id: nat, k: int): (r: (Store, Option<Entry>))
    ensures Find(st.workflows, id).None? || !IsStep(k) ==> r == (st, None)
    ensures Find(st.workflows, id).Some? && IsStep(k) ==>
      var i := Find(st.workflows, id).value;
      var w := st.workflows[i];
      && r.1 == Some(Cleared)
      && r.0 == st.(workflows := r.0.workflows)
      && |r.0.workflows| == |st.workflows|
      && (forall j :: 0 <= j < |st.workflows| && j != i ==> r.0.workflows[j] == st.workflows[j])
      && r.0.workflows[i] == w.(currentStep := k, status := InProgress, ledger := r.0.workflows[i].ledger)
      && r.0.workflows[i].ledger[k - 1] == Cleared
      && (forall x :: 0 <= x < StepCount && x != k - 1 ==> r.0.workflows[i].ledger[x] == w.ledger[x])
  {
    match Find(st.workflows, id)
    case None => (st, None)
    case Some(i) =>
      if !IsStep(k) then (st, None)
      else
        var w := st.workflows[i];
        var w' := w.(ledger := w.ledger[k - 1 := Cleared], currentStep := k, status := InProgress);
        (st.(workflows := st.workflows[i := w']), Some(Cleared))
  }
}

=== FILE: text.dfy ===
/** The few string conversions the system relies on: Python's `str(int)`,
    the `{n:05d}` format, `int(...)` on a digit string, and JavaScript's
    `String.prototype.trim`. Strings are sequences of characters. */
module Text {

  import opened Wrappers

  predicate IsDigit(c: char) {
    '0' <= c <= '9'
  }

  predicate AllDigits(s: string) {
    forall i :: 0 <= i < |s| ==> IsDigit(s[i])
  }

  function DigitChar(d: nat): (c: char)
    requires d < 10
    ensures IsDigit(c)
  {
    "0123456789"[d]
  }

  function DigitValue(c: char): (d: nat)
    requires IsDigit(c)
    ensures d < 10
  {
    (c as int - '0' as int) as nat
  }

  /** The number a string of decimal digits denotes (most significant first). */
  function DigitsValue(s: string): nat
    requires AllDigits(s)
  {
    if |s| == 0 then 0 else DigitsValue(s[..|s| - 1]) * 10 + DigitValue(s[|s| - 1])
  }

  /** Python's `str(n)` for a non-negative integer: the shortest decimal digits. */
  function NatToString(n: nat): (s: string)
    ensures 1 <= |s|
    ensures AllDigits(s)
    ensures |s| > 1 ==> s[0] != '0'
    decreases n
  {
    if n < 10 then [DigitChar(n)] else NatToString(n / 10) + [DigitChar(n % 10)]
  }

  /** Python's `str(n)` for any integer. */
  function IntToString(n: int): (s: string)
    ensures 1 <= |s|
    ensures n >= 0 <==> AllDigits(s)
  {
    if n >= 0 then NatToString(n)
    else
      var s := "-" + NatToString(-n);
      assert !IsDigit(s[0]);
      s
  }

  lemma {:induction false} NatToStringValue(n: nat)
    ensures DigitsValue(NatToString(n)) == n
    decreases n
  {
    if n >= 10 {
      NatToStringValue(n / 10);
      var s := NatToString(n);
      assert s[..|s| - 1] == NatToString(n / 10);
    }
  }

  /** Left-pads `s` with '0' up to `width` characters, as the `0` flag of a
      Python format specification does. */
  function ZeroPad(s: string, width: nat): (r: string)
    ensures |r| == if |s| >= width then |s| else width
    ensures r[|r| - |s|..] == s
    ensures forall i :: 0 <= i < |r| - |s| ==> r[i] == '0'
  {
    if |s| >= width then s else seq(width - |s|, _ => '0') + s
  }

  lemma {:induction false} LeadingZerosValue(z: string, s: string)
    requires forall i :: 0 <= i < |z| ==> z[i] == '0'
    requires AllDigits(s)
    ensures AllDigits(z + s)
    ensures DigitsValue(z + s) == DigitsValue(s)
    decreases |s|
  {
    if |s| == 0 {
      assert z + s == z;
      ZerosValue(z);
    } else {
      var t := z + s;
      assert t[..|t| - 1] == z + s[..|s| - 1];
      LeadingZerosValue(z, s[..|s| - 1]);
    }
  }

  lemma {:induction false} ZerosValue(z: string)
    requires forall i :: 0 <= i < |z| ==> z[i] == '0'
    ensures AllDigits(z)
    ensures DigitsValue(z) == 0
    decreases |z|
  {
    if |z| > 0 {
      ZerosValue(z[..|z| - 1]);
    }
  }

  /** Python's `f"{n:05d}"`: at least five characters, zero-padded after
      the sign. */
  function Format05(n: int): string
  {
    if n >= 0 then ZeroPad(NatToString(n), 5) else "-" + ZeroPad(NatToString(-n), 4)
  }

  /** Python's `int(s)` restricted to an optional sign followed by ASCII
      digits; `None` stands for the `ValueError` it raises otherwise. */
  function ParseInt(s: string): (r: Option<int>)
    ensures r.Some? ==> 1 <= |s|
    ensures AllDigits(s) && s != "" ==> r == Some(DigitsValue(s))
  {
    if |s| == 0 then None
    else if s[0] == '-' || s[0] == '+' then
      var rest := s[1..];
      if rest != "" && AllDigits(rest) then
        Some(if s[0] == '-' then -(DigitsValue(rest) as int) else DigitsValue(rest))
      else None
    else if AllDigits(s) then Some(DigitsValue(s))
    else None
  }

  /** Zero-padded decimal digits of m still denote m. */
  lemma PaddedValue(m: nat, width: nat)
    ensures AllDigits(ZeroPad(NatToString(m), width))
    ensures DigitsValue(ZeroPad(NatToString(m), width)) == m
  {
    var digits := NatToString(m);
    var padded := ZeroPad(digits, width);
    var zeros := padded[..|padded| - |digits|];
    assert padded == zeros + digits;
    LeadingZerosValue(zeros, digits);
    NatToStringValue(m);
  }

  /** `int("-" + t)` for a non-empty digit string t. */
  lemma ParseNegative(t: string)
    requires t != "" && AllDigits(t)
    ensures ParseInt("-" + t) == Some(-(DigitsValue(t) as int))
  {
    assert ("-" + t)[1..] == t;
  }

  /** Parsing undoes formatting: `int(f"{n:05d}") == n` for every integer. */
  lemma Format05RoundTrip(n: int)
    ensures ParseInt(Format05(n)) == Some(n)
  {
    if n >= 0 {
      var p := ZeroPad(NatToString(n), 5);
      PaddedValue(n, 5);
      assert Format05(n) == p && |p| >= 5;
    } else {
      var p := ZeroPad(NatToString(-n), 4);
      PaddedValue(-n, 4);
      ParseNegative(p);
      assert Format05(n) == "-" + p;
    }
  }

  predicate IsJsWhitespace(c: char) {
    || c == ' ' || c == '\t' || c == '\n' || c == '\r'
    || c == '\U{000B}' || c == '\U{000C}' || c == '\U{00A0}' || c == '\U{FEFF}'
    || c == '\U{1680}' || ('\U{2000}' <= c <= '\U{200A}') || c == '\U{2028}'
    || c == '\U{2029}' || c == '\U{202F}' || c == '\U{205F}' || c == '\U{3000}'
  }

  function TrimStart(s: string): (r: string)
    ensures |r| <= |s| && r == s[|s| - |r|..]
    ensures r == "" || !IsJsWhitespace(r[0])
    ensures forall i :: 0 <= i < |s| - |r| ==> IsJsWhitespace(s[i])
  {
    if |s| > 0 && IsJsWhitespace(s[0]) then TrimStart(s[1..]) else s
  }

  function TrimEnd(s: string): (r: string)
    ensures |r| <= |s| && r == s[..|r|]
    ensures r == "" || !IsJsWhitespace(r[|r| - 1])
    ensures forall i :: |r| <= i < |s| ==> IsJsWhitespace(s[i])
  {
    if |s| > 0 && IsJsWhitespace(s[|s| - 1]) then TrimEnd(s[..|s| - 1]) else s
  }

  /** JavaScript's `s.trim()`. */
  function Trim(s: string): string {
    TrimEnd(TrimStart(s))
  }

  /** `!s.trim()`: the string is empty or whitespace only. */
  predicate IsBlank(s: string) {
    forall i :: 0 <= i < |s| ==> IsJsWhitespace(s[i])
  }

  /** Trimming yields the empty string exactly for blank input, and a
      non-blank result has no whitespace at either end. */
  lemma TrimBlank(s: string)
    ensures Trim(s) == "" <==> IsBlank(s)
    ensures Trim(s) != "" ==> !IsJsWhitespace(Trim(s)[0]) && !IsJsWhitespace(Trim(s)[|Trim(s)| - 1])
  {
    if IsBlank(s) {
      BlankTrimsToEmpty(s);
    }
  }

  lemma {:induction false} BlankTrimsToEmpty(s: string)
    requires IsBlank(s)
    ensures TrimStart(s) == ""
    decreases |s|
  {
    if |s| > 0 {
      BlankTrimsToEmpty(s[1..]);
    }
  }
}

=== FILE: timeline.dfy ===
/** The step timeline of src/components/WorkflowTimeline.tsx: one card per
    label after the first, each classified from the ledger entry found by
    step number and the workflow's current step. */
module Timeline {
  import opened Wrappers
  import opened Model
  import Api
  import Access

  /** Circle and badge colour; completed wins over current. */
  datatype Style = Completed | Current | Waiting

  datatype Card = Card(
    stepNumber: int, caption: string, teamFlow: Option<string>, style: Style,
    statusText: string, signedBy: Option<string>)

  /** Where `steps.find(s => s.step_number === n)` stops: the first row
      with that number. */
  function FindIndex(steps: seq<Api.StepRow>, n: int): (r: Option<nat>)
    ensures r.None? <==> forall i :: 0 <= i < |steps| ==> steps[i].stepNumber != n
    ensures r.Some? ==> r.value < |steps| && steps[r.value].stepNumber == n
    ensures r.Some? ==> forall j :: 0 <= j < r.value ==> steps[j].stepNumber != n
  {
    if |steps| == 0 then None
    else if steps[0].stepNumber == n then Some(0)
    else match FindIndex(steps[1..], n)
      case None => None
      case Some(i) => Some(i + 1)
  }

  function FindStep(steps: seq<Api.StepRow>, n: int): (r: Option<Api.StepRow>)
    ensures r.None? <==> FindIndex(steps, n).None?
    ensures r.Some? ==> r.value == steps[FindIndex(steps, n).value]
  {
    match FindIndex(steps, n)
    case None => None
    case Some(i) => Some(steps[i])
  }

  predicate IsCompleted(step: Option<Api.StepRow>) {
    step.Some? && step.value.entry.status == Approved
  }

  /** One card: completed when the found entry is Approved, current when it
      is the workflow's step, waiting when neither; the badge shows the
      entry's status or 'Pending'; the signer only on a completed step
      that has one. */
  function CardFor(steps: seq<Api.StepRow>, currentStep: int, labels: seq<string>, flows: seq<string>, n: int): (c: Card)
    requires 1 <= n < |labels|
    ensures c.stepNumber == n && c.caption == labels[n]
    ensures c.teamFlow == Access.At(flows, n)
    ensures c.style == Completed <==> IsCompleted(FindStep(steps, n))
    ensures c.style == Current <==> !IsCompleted(FindStep(steps, n)) && currentStep == n
    ensures c.style == Waiting <==> !IsCompleted(FindStep(steps, n)) && currentStep != n
    ensures FindStep(steps, n).None? ==> c.statusText == "Pending"
    ensures FindStep(steps, n).Some? ==> c.statusText == Access.StatusText(FindStep(steps, n).value.entry.status)
    ensures c.signedBy.Some? <==> IsCompleted(FindStep(steps, n)) && FindStep(steps, n).value.entry.person.Some? && FindStep(steps, n).value.entry.person.value != ""
  {
    var step := FindStep(steps, n);
    var completed := IsCompleted(step);
    var style := if completed then Completed else if currentStep == n then Current else Waiting;
    var text := if step.Some? then Access.StatusText(step.value.entry.status) else "Pending";
    var signer := if completed && step.value.entry.person.Some? && step.value.entry.person.value != "" then step.value.entry.person else None;
    Card(n, labels[n], Access.At(flows, n), style, text, signer)
  }

  /** The rendered cards: label 0 is skipped and card i is step i + 1. */
  function Render(steps: seq<Api.StepRow>, currentStep: int, labels: seq<string>, flows: seq<string>): (cards: seq<Card>)
    ensures |cards| == if |labels| == 0 then 0 else |labels| - 1
    ensures forall i :: 0 <= i < |cards| ==> cards[i] == CardFor(steps, currentStep, labels, flows, i + 1)
  {
    if |labels| == 0 then []
    else seq(|labels| - 1, i requires 0 <= i < |labels| - 1 => CardFor(steps, currentStep, labels, flows, i + 1))
  }

  /** On the step list the server sends, finding a step by its number is
      the same as taking the ledger entry at its position. */
  lemma FindByNumberIsPosition(l: Ledger, n: int)
    requires IsStep(n)
    ensures FindStep(Api.StepRows(l), n) == Some(Api.StepRow(n, l[n - 1]))
  {
    var rows := Api.StepRows(l);
    assert rows[n - 1].stepNumber == n;
    var i := FindIndex(rows, n).value;
    assert rows[i].stepNumber == i + 1;
  }

  /** A step whose entry is Approved is drawn completed even when it is the
      current step (as step 8 is once approved). */
  lemma CompletedWinsOverCurrent(l: Ledger, n: int)
    requires IsStep(n) && l[n - 1].status == Approved
    ensures CardFor(Api.StepRows(l), n, Access.StepLabels, Access.StepTeamFlow, n).style == Completed
    ensures CardFor(Api.StepRows(l), n, Access.StepLabels, Access.StepTeamFlow, n).statusText == "Approved"
  {
    FindByNumberIsPosition(l, n);
  }
}

=== FILE: wrappers.dfy ===
/** Failure-compatible wrappers used across the model: `Option` for values a
    lookup may not find (Python `None`, JavaScript `undefined`), `Result` for
    operations that raise or return an error instead of a value. */
module Wrappers {

  datatype Option<+T> = None | Some(value: T) {

    /** The value, or `default` when there is none. */
    function GetOr(default: T): T {
      match this
      case Some(v) => v
      case None => default
    }
  }

  datatype Result<+R, +E> = Success(value: R) | Failure(error: E)
}
